=== FILE: README.md ===
# XtractorDriver, modelled in Dafny

The repository is three small Python scripts. `xtractor_driver.py` reads a
list of post URLs, loads each post in a logged-in browser, extracts author,
time, text and engagement counters plus a screenshot, and keeps one JSON
record per URL in a TinyDB store. It skips URLs already stored without an
error. `wordpress_import.py` reads that store and, for every record, uploads
the screenshot if it exists and creates a published WordPress post.
`extract_bookmarks.py` finds a named folder in an exported bookmarks file and
writes its distinct link URLs, sorted.

This project models the decision logic of the three scripts. The libraries
are replaced by plain values:

- the browser becomes a `PostElement`. For each selector it says whether an
  element was found and what it holds. It also records whether
  `save_screenshot` raised, and with what message. A URL load is `TimedOut`, `Loaded`, or `Raised` when
  the browser throws anything else, which ends the run.
- the TinyDB store becomes a `seq<Record>` in insertion order. `db.get`
  returns the first match.
- a record is a dict with optional keys. Each key becomes a `Field`: the key
  is missing, holds `None`, or holds a string.
- the file system and the WordPress API become two function parameters: does
  a path exist, and what does the media endpoint answer for it.
- BeautifulSoup's parsed document becomes a tree of `Element`/`Text` nodes.

Modules:

- `Strings`: ASCII `strip`, `lower` and substring search.
- `Sorting`: Python's string order and `sorted`.
- `PostRecord`: the record.
- `Extraction` and `Scraper`: `xtractor_driver.py`.
- `Dates` and `WordpressImport`: `wordpress_import.py`.
- `Bookmarks`: `extract_bookmarks.py`.
- `Wrappers`: `Option` and `Result`.

## Model

| member | source | states |
|---|---|---|
| Strings.Strip | xtractor_driver.py:23 | `line.strip()` gives the unique slice that drops only whitespace at both ends and neither starts nor ends with whitespace. It is empty exactly when the line is blank. |
| Strings.Lower | xtractor_driver.py:82-89 | `lower()` keeps the length and lower-cases each ASCII letter in place. |
| Strings.Contains | xtractor_driver.py:82-89 | The scanning substring test agrees with "the needle occurs at some index" on every input. |
| Sorting.Below | extract_bookmarks.py:51 | A prefix sorts before any string it starts, and two strings with different first characters are ordered by that character. |
| Sorting.BelowMeansFirstDifference | extract_bookmarks.py:51 | Python string order holds when `a` is a prefix of `b`, or when `a` has the smaller code point at the first position where they differ. |
| Sorting.BelowTotal | extract_bookmarks.py:51 | Any two strings are comparable. |
| Sorting.BelowTransitive | extract_bookmarks.py:51 | The string order is transitive. |
| Sorting.BelowAntisymmetric | extract_bookmarks.py:51 | Strings that are each below the other are equal. |
| Sorting.Sort | extract_bookmarks.py:51 | `sorted(urls)` is ordered and is a permutation of its input. |
| Sorting.SortedUnique | extract_bookmarks.py:51 | Two sorted lists with the same multiset are equal, so the sorted output is determined by the elements alone. |
| Sorting.SortIgnoresInputOrder | extract_bookmarks.py:51 | Sorting two arrangements of the same strings gives the same list. |
| Scraper.SplitLines | xtractor_driver.py:22-23 | Iterating over the file yields non-empty lines. A newline occurs only as a line's last character, every line but the last ends in one, and the lines concatenate back to the file text. |
| Scraper.Urls | xtractor_driver.py:23 | Each kept URL is non-empty and has no surrounding whitespace. There are at most as many URLs as lines. |
| Scraper.UrlsMembers | xtractor_driver.py:23 | A string is in the list exactly when it is the non-empty strip of some line. |
| Scraper.UrlsAppend | xtractor_driver.py:23 | Filtering distributes over concatenation of line ranges, so file order is preserved. |
| Scraper.CollectUrls | xtractor_driver.py:23 | The loop over the lines builds exactly the list of stripped non-blank lines. |
| Scraper.ReadUrls | xtractor_driver.py:16-29 | A missing file is `FileMissing`. A file with no non-blank line is `NoUrls`. Otherwise the result is `Success` of exactly the stripped non-blank lines, in file order. |
| Scraper.Only | xtractor_driver.py:117 | The records stored for a URL all carry that URL and come from the store. The list is empty exactly when no stored record has the URL. |
| Scraper.OnlyHoldsAll | xtractor_driver.py:117 | Every stored record with the URL is among the records found for it. |
| Scraper.Without | xtractor_driver.py:147-148 | `db.remove` leaves no record with that URL and only records from the store. |
| Scraper.WithoutKeepsOthers | xtractor_driver.py:147-148 | Removing one URL's records leaves every other URL's records unchanged and in order. |
| Scraper.FirstIndex | xtractor_driver.py:117 | `db.get` finds the first record with the URL, or none exists. |
| Scraper.Decide | xtractor_driver.py:117-122 | Fetch when no record has the URL. Skip exactly when the first matching record has a falsy `error`. |
| Scraper.TimeoutRecord | xtractor_driver.py:153-156 | The timeout record is `{"url": url, "error": "Failed to load post"}` and has no other key. |
| Scraper.Scraped | xtractor_driver.py:46-145 | A loaded post's record has the URL and has a parent exactly when a parent element exists. Its `error` stays `None` exactly when all required fields were found and the screenshot saved. On a missing field the error is the extraction failure. The screenshot paths are `images_dir/<id>.png` and `images_dir/<id>_parent.png`. The handle, `datetime` attribute, content and the four counters are the ones read from the page. A failed screenshot gives `error = "Screenshot failed: …"`. On a missing field, content, counters and `screenshot_file` are absent. A parent's record is exactly what `extract_post_details` returns for it. A missing handle leaves both `handle` and `datetime` absent, and a missing time element leaves `datetime` absent. |
| Scraper.ProcessUrl | xtractor_driver.py:113-159 | Skip leaves the store unchanged, and so does a load that raises. A timeout appends the error record and removes nothing. A success removes every record of the URL when one existed, then appends exactly one. Records of other URLs are untouched. |
| Scraper.ProcessUrls | xtractor_driver.py:113-159 | The run stops only if some visit raised. With no visits the store is unchanged. |
| Scraper.StoppedStaysStopped | xtractor_driver.py:113-159 | Once a visit has raised, the remaining URLs change nothing. |
| Scraper.RaisedEndsRun | xtractor_driver.py:124-159 | A visit that is not skipped and raises ends the run. Its URL is neither removed nor inserted, and no later URL is visited. |
| Scraper.EveryVisitStored | xtractor_driver.py:113-159 | After a run that did not stop, every listed URL has at least one record in the store. |
| Scraper.ProcessUrlsFrame | xtractor_driver.py:113-159 | A run leaves the records of every URL it does not visit unchanged. |
| Scraper.ProcessUrlsGrowth | xtractor_driver.py:113-159 | A run adds at most one record per listed URL. |
| Scraper.CleanRecordIsFinal | xtractor_driver.py:117-151 | After a visit stores an error-free record, the URL is decided `Skip`, and its next visit is skipped and changes nothing, whatever its load outcome. |
| Scraper.DecideByOnly | xtractor_driver.py:117-122 | The decision about a URL depends only on that URL's records: none gives Fetch, otherwise the first one's `error` decides between Refetch and Skip. |
| Scraper.SkipIsStable | xtractor_driver.py:113-159 | A skipped URL stays skipped through any run, and its records stay exactly as they were. |
| Scraper.CleanRecordStaysFinal | xtractor_driver.py:113-159 | After a visit stores an error-free record, any visits of other URLs leave its records alone, and the URL's next visit is skipped and changes nothing. |
| Scraper.TimeoutAfterErrorDuplicates | xtractor_driver.py:121-156 | A timeout on a URL whose first record has an error leaves two or more records for that URL, so a URL does not always identify a single record. |
| Scraper.TimeoutIsRetried | xtractor_driver.py:117-156 | A new URL that timed out is fetched again on the next visit. |
| Scraper.SkipThenStore | xtractor_driver.py:113-156 | Two URLs, the first already stored without an error: only the second is fetched, and the store ends as the old record followed by the new one. |
| Extraction.Classify | xtractor_driver.py:81-89 | The lower-cased aria-label's category, in priority order: reply/comment, then repost/retweet, then like, then view, each by substring. Each category holds exactly under its condition. |
| Extraction.StatCategory | xtractor_driver.py:80-81 | A stat without an aria-label, or with an empty one, is ignored. Any other stat has the category its label classifies to. |
| Extraction.CountText | xtractor_driver.py:83-89 | A counter value is the stat's text, or "0" when the text is empty, and is never empty. |
| Extraction.Observe | xtractor_driver.py:79-89 | One stat sets only its own category's counter, to its count text. A stat with no usable label changes nothing. |
| Extraction.Tally | xtractor_driver.py:73-89 | All four counters are always non-empty strings. The counters for a list are one more loop step (Observe) applied to the counters of the list without its last stat. |
| Extraction.TallyLastWins | xtractor_driver.py:79-89 | A counter equals the value of the last stat of its category. Stats without a label and stats of other categories do not affect it. |
| Extraction.TallyUnseen | xtractor_driver.py:74-77 | A category that no stat belongs to stays "0". |
| Extraction.FirstStatus | xtractor_driver.py:134 | Finds the leftmost position where `status/` is followed by a digit, or reports that there is none. |
| Extraction.DigitRun | xtractor_driver.py:134 | The greedy `\d+` run: all digits, ending at the end of the text or at a non-digit. |
| Extraction.PostId | xtractor_driver.py:134-135 | The post id is the maximal digit run after the leftmost `status/<digit>`, or "unknown". It is "unknown" exactly when no such match exists. |
| Extraction.PathJoin | xtractor_driver.py:95 | `os.path.join` ends with the file name and returns an absolute name unchanged. Otherwise it is the directory, then a `/` unless the directory is empty or already ends in one, then the name. |
| Extraction.ExtractPostDetails | xtractor_driver.py:55-109 | Each field read before a missing required selector is kept. A missing selector gives `error = "Extraction failed: …"` and no counters or `screenshot_file`. The handle, the `datetime` attribute (null when absent) and the content are the values read. Once all required fields are found, `screenshot_file` is set even if saving fails. A failed save gives `error = "Screenshot failed: …"`; a successful one leaves no error. |
| PostRecord.Update | xtractor_driver.py:136 | `dict.update`: each key present in the extracted dict takes its value, and every other key keeps the old one. Updating with `{}` changes nothing. |
| Dates.FormatDate | wordpress_import.py:100-105 | The result is "Unknown Date" or has the `MM/DD/YYYY` shape: two digits, '/', two digits, '/', four digits. |
| Dates.FormatRendered | wordpress_import.py:100-105 | Every valid calendar date and time, written as `YYYY-MM-DDTHH:MM:SS.000Z`, becomes its own `MM/DD/YYYY`. |
| Dates.FormatOnlyRendered | wordpress_import.py:100-105 | Every input not mapped to "Unknown Date" is exactly the rendering of a valid date and time. |
| Dates.FormatKeepsDigits | wordpress_import.py:102-103 | The formatted date reuses the input's month, day and year digits. |
| Dates.NumberOfPad | wordpress_import.py:102-103 | Zero-padded decimal writing followed by reading gives the number back. |
| Dates.PadOfNumber | wordpress_import.py:102-103 | Reading a digit string and zero-padding it to its length gives the string back. |
| Dates.RenderFields | wordpress_import.py:102 | A rendered stamp has each zero-padded field and separator at the fixed positions of the input format. |
| Dates.FormatExample | wordpress_import.py:100-103 | `2024-03-05T10:00:00.000Z` becomes `03/05/2024`. |
| Dates.MillisecondsMustBeZero | wordpress_import.py:102-105 | Non-zero milliseconds give "Unknown Date". |
| Dates.NoSuchDay | wordpress_import.py:102-105 | 29 February of a common year gives "Unknown Date". |
| WordpressImport.Text | wordpress_import.py:90-98 | `post_data.get(key, default)` in an f-string: the default for a missing key, "None" for null, the string otherwise. |
| WordpressImport.Title | wordpress_import.py:108 | The title reads back as "Post by ", the handle, one space, then the date. |
| WordpressImport.Item | wordpress_import.py:112-116 | An item reads back as `<li>`, the name, `: `, the value, then `</li>`. |
| WordpressImport.MetadataItems | wordpress_import.py:111-117 | There are exactly five items, labelled URL, Likes, Reposts, Comments and Views in that order. Each is exactly `<li>`, its label, `: `, its value, `</li>`: the items start and end that way and have that length. The value is a link for the URL and the counter text for the others. |
| WordpressImport.Body | wordpress_import.py:54 | The body reads back as the content, the list opening, the metadata, then `\n</ul>`. |
| WordpressImport.CreatePayload | wordpress_import.py:50-60 | The title is passed through, and the content is the body built from the content and the metadata. The status is always "publish". `featured_media` is present exactly when the image id is truthy, and then equals it. |
| WordpressImport.UploadImage | wordpress_import.py:18-47 | An id comes back exactly when the answer is 201 and carries an id. Any other status or an exception gives None. |
| WordpressImport.PublishRecord | wordpress_import.py:88-127 | An upload is attempted exactly when `screenshot_file` is non-empty and the file exists. Without one there is no `featured_media`. The title is `Post by <handle> <date>`, with handle default "Unknown" and the formatted date. The content is the body built from the content (default "") and the concatenated items for url, likes, reposts, comments and views (defaults "" and "0"). A null `datetime` stops the run. |
| WordpressImport.PublishAll | wordpress_import.py:88 | A run makes at most one create request per record. |
| WordpressImport.StepsAligned | wordpress_import.py:88-127 | When no iteration raises, the loop makes one attempt per record, in record order. |
| WordpressImport.StepsStop | wordpress_import.py:88-127 | The first iteration that raises ends the loop. Only the records before it made their attempts. |
| WordpressImport.ProcessJsonFile | wordpress_import.py:78-88 | An unreadable file or a missing `_default` table makes no requests. Otherwise the run is the loop over the `_default` table. |
| WordpressImport.OneAttemptPerRecord | wordpress_import.py:88-127 | Without a null `datetime`, every record yields exactly one create request, in table order, whatever its upload did. |
| WordpressImport.NullDatetimeStops | wordpress_import.py:92-102 | A null `datetime` stops the run at that record. Only the records before it got their create requests. |
| Bookmarks.PreorderVisitsSiblings | extract_bookmarks.py:12 | Document order visits every node of a sibling list. |
| Bookmarks.PreorderVisitsNested | extract_bookmarks.py:26 | Document order also visits every node under a child, so `dt` entries in nested sub-folders are reached. |
| Bookmarks.StringOf | extract_bookmarks.py:12 | `.string` is a text node's text, nothing for an element without exactly one child, and the one child's string otherwise. |
| Bookmarks.NextDl | extract_bookmarks.py:14 | `find_next_sibling("dl")` returns the first following sibling tagged `dl`, or nothing exactly when none follows. |
| Bookmarks.FindFolder | extract_bookmarks.py:12-15 | Any list the search returns is a `dl`. |
| Bookmarks.FirstHeading | extract_bookmarks.py:12-14 | The reference scan returns `NotFound` exactly when no heading in document order has a string that contains the folder name, ignoring case. |
| Bookmarks.FirstHeadingFound | extract_bookmarks.py:12-14 | A found result comes from the first matching heading in document order, and holds the `dl` that follows that heading. |
| Bookmarks.FindFolderIsFirstInDocumentOrder | extract_bookmarks.py:12-15 | The recursive search agrees with the first-match scan of the document-order list. |
| Bookmarks.FindFirst | extract_bookmarks.py:27 | `dt.find("a")` returns the first `a` in document order, or nothing exactly when there is none. |
| Bookmarks.DtHref | extract_bookmarks.py:27-29 | A `dt` yields an href exactly when the first `a` below it has an `href` attribute, and then yields that value. |
| Bookmarks.Hrefs | extract_bookmarks.py:25-29 | The loop collects at most one href per node visited. |
| Bookmarks.HrefsMembers | extract_bookmarks.py:25-29 | An href is collected exactly when some `dt` below the list has a first `a` with that `href`. |
| Bookmarks.Dedupe | extract_bookmarks.py:32 | The list has no duplicates and the same elements as its input. |
| Bookmarks.ExtractFolderUrls | extract_bookmarks.py:5-32 | The result has no duplicates. It is empty when no heading matches or no `dl` follows the heading. Otherwise its elements are exactly the hrefs the folder's `dt` entries yield. |
| Bookmarks.Output | extract_bookmarks.py:48-55 | No file is written exactly when there are no URLs. Otherwise the written lines are sorted and are a permutation of the URLs. |
| Bookmarks.OutputIgnoresSetOrder | extract_bookmarks.py:32-51 | Whatever order the set yields its URLs in, the written lines are the same. |

## Left out

- Browser work is left out: driver setup, the login check, navigation, waits and taking the screenshot. Each becomes an outcome inside `PostElement` or `LoadOutcome`. Any exception other than a timeout or a missing element becomes the one outcome `Raised`, whether navigation threw it or an element went stale while being read. The run then stops with the store as it was, as the exception leaves `process_urls` uncaught.
- Pacing with `time.sleep` is left out. It has no effect on the result.
- TinyDB file persistence is left out. The store is the in-memory `seq<Record>`, and `db.insert` appends.
- HTTP calls, configuration loading and the `sys.exit` paths of the `__main__` blocks are left out. Only `read_urls`'s exits are modelled, as `Failure` results.
- Printed log lines are left out.
- The HTML parser is left out. The model starts from a parsed tree with lower-case tag names, and comments are not modelled.
- Text rules are ASCII only: `lower()`, `strip()` and regex `IGNORECASE` do not use Unicode case folding or Unicode whitespace.
- Extraction.PostId: the regex `\d` also matches non-ASCII decimal digits, which end the id in the model.
- Scraper.ReadUrls: a file that exists but cannot be opened or decoded raises in `open` or during iteration instead of exiting. The file is either missing or its text, so that case is not modelled.
- WordpressImport.PublishAll: the media endpoint is one function of the path, so within a run two uploads of the same path get the same answer. Records can share a path, for example every URL without a post id maps to `images/unknown.png`. No proved property depends on this.
- A `Saved` screenshot means only that `save_screenshot` did not raise. The script ignores its return value, so a write the library reports as failed by returning false still counts as saved, as it does in the source.
- Scraper.SplitLines: models the text after Python's universal-newline translation, so `\r\n` and `\r` are assumed to be already `\n`.
- Dates.FormatDate: `strptime` matches the format's literal letters ignoring case, so `2024-03-05t10:00:00.000z` gives `03/05/2024` in the source but "Unknown Date" in the model. Its `\d` fields also accept non-ASCII decimal digits, which the model rejects.
- Dates.FormatDate: accepts only the zero-padded canonical form. `strptime` also accepts single-digit fields and a leading space in some of them; those inputs give "Unknown Date" in the model. The year is written with four digits even below 1000, where some C libraries print fewer.
- WordpressImport.PublishRecord: field values are strings or null. Non-string JSON values, such as a number in `datetime`, also raise TypeError in the source but are not modelled. The image id is an integer.
- WordpressImport.ProcessJsonFile: a JSON document that is not an object, where `.get` would raise, is not modelled.
- Bookmarks.Dedupe: `list(set(urls))` has an unspecified order. The model keeps first occurrences and claims only the elements and the absence of duplicates. `Bookmarks.OutputIgnoresSetOrder` shows the written file does not depend on that order.
- Bookmarks.Output: the file holds the returned lines, each followed by `\n`. The text join itself is not modelled.
- A URL is meant to identify one record, but the code does not guarantee it. A load timeout after an earlier error appends a second record for the URL, as `Scraper.TimeoutAfterErrorDuplicates` shows. The model follows the code.
- The bookmark folder's nested sub-folders could be read as out of scope, but the code's `find_all("dt", recursive=True)` does search them, and the model follows the code (`Bookmarks.PreorderVisitsNested`).

=== FILE: bookmarks.dfy ===
/** `extract_folder_urls` over an already parsed bookmarks document, and the
    sorted output the script writes. */
module Bookmarks {
  import opened Wrappers
  import opened Strings
  import Sorting

  /** A parsed HTML node: an element with its attributes and children, or text. */
  datatype Node = Element(tag: string, attrs: map<string, string>, children: seq<Node>) | Text(text: string)

  predicate IsTag(n: Node, tag: string) {
    n.Element? && n.tag == tag
  }

  // ---------------------------------------------------------------------------
  // Document order

  /** Every node under `sibs` in document order. Each entry is the node
      itself followed by its later siblings, so that sibling searches can
      continue from it. */
  function Preorder(sibs: seq<Node>): (ps: seq<seq<Node>>)
    ensures forall k :: 0 <= k < |ps| ==> |ps[k]| > 0
    decreases sibs
  {
    if |sibs| == 0 then []
    else
      var below := match sibs[0]
        case Element(_, _, cs) => Preorder(cs)
        case Text(_) => [];
      [sibs] + below + Preorder(sibs[1..])
  }

  /** Each node of the list itself is visited. */
  lemma {:induction false} PreorderVisitsSiblings(sibs: seq<Node>, i: nat)
    requires i < |sibs|
    ensures sibs[i..] in Preorder(sibs)
    decreases |sibs|
  {
    if i > 0 {
      PreorderVisitsSiblings(sibs[1..], i - 1);
      assert sibs[1..][i - 1..] == sibs[i..];
    }
  }

  /** Whatever is visited under a child is visited under its parent list:
      the traversal reaches every depth. */
  lemma {:induction false} PreorderVisitsNested(sibs: seq<Node>, i: nat, p: seq<Node>)
    requires i < |sibs| && sibs[i].Element? && p in Preorder(sibs[i].children)
    ensures p in Preorder(sibs)
    decreases |sibs|
  {
    if i > 0 {
      PreorderVisitsNested(sibs[1..], i - 1, p);
    }
  }

  // ---------------------------------------------------------------------------
  // Finding the folder

  /** BeautifulSoup's `.string`: the text of a node whose only content is a
      single chain of one child each, ending in text. */
  function StringOf(n: Node): (s: Option<string>)
    ensures n.Text? ==> s == Some(n.text)
    ensures n.Element? && |n.children| != 1 ==> s.None?
    ensures n.Element? && |n.children| == 1 ==> s == StringOf(n.children[0])
  {
    match n
    case Text(s) => Some(s)
    case Element(_, _, cs) => if |cs| == 1 then StringOf(cs[0]) else None
  }

  /** An `h3` whose string contains the folder name, ignoring case. */
  predicate IsFolderHeading(n: Node, folderName: string) {
    IsTag(n, "h3") && StringOf(n).Some? && Contains(Lower(StringOf(n).value), Lower(folderName))
  }

  /** `find_next_sibling("dl")` over the siblings after a node. */
  function NextDl(following: seq<Node>): (d: Option<Node>)
    ensures d.Some? ==> IsTag(d.value, "dl")
    ensures d.Some? ==> exists i :: 0 <= i < |following| && following[i] == d.value
                                    && forall j :: 0 <= j < i ==> !IsTag(following[j], "dl")
    ensures d.None? <==> forall j :: 0 <= j < |following| ==> !IsTag(following[j], "dl")
  {
    if |following| == 0 then None
    else if IsTag(following[0], "dl") then Some(following[0])
    else
      var d := NextDl(following[1..]);
      assert d.Some? ==> exists i :: 0 <= i < |following| && following[i] == d.value
                                     && forall j :: 0 <= j < i ==> !IsTag(following[j], "dl") by {
        if d.Some? {
          var i :| 0 <= i < |following[1..]| && following[1..][i] == d.value
                   && forall j :: 0 <= j < i ==> !IsTag(following[1..][j], "dl");
          assert following[i + 1] == d.value;
        }
      }
      d
  }

  /** The outcome of looking for the folder: no heading matched, or the first
      matching heading and the `dl` after it, if any. */
  datatype Search = NotFound | Found(dl: Option<Node>)

  /** The recursive search the parser's `find` performs. */
  function FindFolder(sibs: seq<Node>, folderName: string): (s: Search)
    ensures s.Found? && s.dl.Some? ==> IsTag(s.dl.value, "dl")
    decreases sibs
  {
    if |sibs| == 0 then NotFound
    else if IsFolderHeading(sibs[0], folderName) then Found(NextDl(sibs[1..]))
    else
      var inside := match sibs[0]
        case Element(_, _, cs) => FindFolder(cs, folderName)
        case Text(_) => NotFound;
      if inside.Found? then inside else FindFolder(sibs[1..], folderName)
  }

  /** Reference reading: scan the document-order list for the first heading. */
  function FirstHeading(ps: seq<seq<Node>>, folderName: string): (s: Search)
    requires forall k :: 0 <= k < |ps| ==> |ps[k]| > 0
    ensures s.NotFound? <==> forall k :: 0 <= k < |ps| ==> !IsFolderHeading(ps[k][0], folderName)
  {
    if |ps| == 0 then NotFound
    else if IsFolderHeading(ps[0][0], folderName) then Found(NextDl(ps[0][1..]))
    else
      var s := FirstHeading(ps[1..], folderName);
      assert forall k :: 1 <= k < |ps| ==> ps[k] == ps[1..][k - 1];
      s
  }

  /** Position `k` holds a matching heading and no earlier position does. */
  predicate FirstHeadingAt(ps: seq<seq<Node>>, k: nat, folderName: string)
    requires k < |ps| && forall k :: 0 <= k < |ps| ==> |ps[k]| > 0
  {
    IsFolderHeading(ps[k][0], folderName) && forall j :: 0 <= j < k ==> !IsFolderHeading(ps[j][0], folderName)
  }

  /** A found heading is the first matching one, and the `dl` after it is returned. */
  lemma {:induction false} FirstHeadingFound(ps: seq<seq<Node>>, folderName: string)
    requires forall k :: 0 <= k < |ps| ==> |ps[k]| > 0
    requires FirstHeading(ps, folderName).Found?
    ensures
      exists k :: 0 <= k < |ps| && FirstHeadingAt(ps, k, folderName)
                  && FirstHeading(ps, folderName).dl == NextDl(ps[k][1..])
    decreases |ps|
  {
    if IsFolderHeading(ps[0][0], folderName) {
      assert FirstHeadingAt(ps, 0, folderName);
    } else {
      var rest := ps[1..];
      FirstHeadingFound(rest, folderName);
      var k :| 0 <= k < |rest| && FirstHeadingAt(rest, k, folderName)
        && FirstHeading(rest, folderName).dl == NextDl(rest[k][1..]);
      assert ps[k + 1] == rest[k];
      assert forall j :: 1 <= j <= k ==> ps[j] == rest[j - 1];
      assert FirstHeadingAt(ps, k + 1, folderName);
    }
  }

  lemma {:induction false} FirstHeadingAppend(a: seq<seq<Node>>, b: seq<seq<Node>>, folderName: string)
    requires forall k :: 0 <= k < |a| ==> |a[k]| > 0
    requires forall k :: 0 <= k < |b| ==> |b[k]| > 0
    ensures FirstHeading(a + b, folderName) ==
      (if FirstHeading(a, folderName).Found? then FirstHeading(a, folderName) else FirstHeading(b, folderName))
    decreases |a|
  {
    if |a| > 0 {
      assert (a + b)[1..] == a[1..] + b;
      FirstHeadingAppend(a[1..], b, folderName);
    } else {
      assert a + b == b;
    }
  }

  /** The search finds the first matching heading in document order. */
  lemma {:induction false} FindFolderIsFirstInDocumentOrder(sibs: seq<Node>, folderName: string)
    ensures FindFolder(sibs, folderName) == FirstHeading(Preorder(sibs), folderName)
    decreases sibs
  {
    if |sibs| > 0 {
      var below := match sibs[0]
        case Element(_, _, cs) => Preorder(cs)
        case Text(_) => [];
      var rest := Preorder(sibs[1..]);
      assert Preorder(sibs) == [sibs] + below + rest;
      assert ([sibs] + below + rest)[1..] == below + rest;
      if !IsFolderHeading(sibs[0], folderName) {
        match sibs[0]
        case Element(_, _, cs) =>
          FindFolderIsFirstInDocumentOrder(cs, folderName);
        case Text(_) =>
      }
      FindFolderIsFirstInDocumentOrder(sibs[1..], folderName);
      FirstHeadingAppend(below, rest, folderName);
    }
  }

  // ---------------------------------------------------------------------------
  // Collecting the links

  /** `find(tag)`: the first node with that tag in document order. */
  function FindFirst(ps: seq<seq<Node>>, tag: string): (n: Option<Node>)
    requires forall k :: 0 <= k < |ps| ==> |ps[k]| > 0
    ensures n.Some? ==> IsTag(n.value, tag)
    ensures n.Some? ==> exists k :: 0 <= k < |ps| && ps[k][0] == n.value
                                    && forall j :: 0 <= j < k ==> !IsTag(ps[j][0], tag)
    ensures n.None? <==> forall k :: 0 <= k < |ps| ==> !IsTag(ps[k][0], tag)
  {
    if |ps| == 0 then None
    else if IsTag(ps[0][0], tag) then Some(ps[0][0])
    else
      var n := FindFirst(ps[1..], tag);
      assert n.Some? ==> exists k :: 0 <= k < |ps| && ps[k][0] == n.value
                                     && forall j :: 0 <= j < k ==> !IsTag(ps[j][0], tag) by {
        if n.Some? {
          var k :| 0 <= k < |ps[1..]| && ps[1..][k][0] == n.value
                   && forall j :: 0 <= j < k ==> !IsTag(ps[1..][j][0], tag);
          assert ps[k + 1] == ps[1..][k];
        }
      }
      n
  }

  /** What one `dt` contributes: the `href` of its first `a`, when that `a` has one. */
  function DtHref(dt: Node): (h: Option<string>)
    ensures h.Some? <==>
      && dt.Element?
      && FindFirst(Preorder(dt.children), "a").Some?
      && "href" in FindFirst(Preorder(dt.children), "a").value.attrs
    ensures h.Some? ==> h.value == FindFirst(Preorder(dt.children), "a").value.attrs["href"]
  {
    match dt
    case Text(_) => None
    case Element(_, _, cs) =>
      match FindFirst(Preorder(cs), "a")
      case None => None
      case Some(a) => if "href" in a.attrs then Some(a.attrs["href"]) else None
  }

  /** The loop over `find_all("dt", recursive=True)`, in document order. */
  function Hrefs(ps: seq<seq<Node>>): (urls: seq<string>)
    requires forall k :: 0 <= k < |ps| ==> |ps[k]| > 0
    ensures |urls| <= |ps|
  {
    if |ps| == 0 then []
    else
      var last := ps[|ps| - 1][0];
      var before := Hrefs(ps[..|ps| - 1]);
      if IsTag(last, "dt") && DtHref(last).Some? then before + [DtHref(last).value] else before
  }

  /** The `dt` entry at a position yields `u`. */
  predicate Yields(p: seq<Node>, u: string)
    requires |p| > 0
  {
    IsTag(p[0], "dt") && DtHref(p[0]) == Some(u)
  }

  lemma HrefsStep(ps: seq<seq<Node>>, u: string)
    requires |ps| > 0 && forall k :: 0 <= k < |ps| ==> |ps[k]| > 0
    ensures u in Hrefs(ps) <==> u in Hrefs(ps[..|ps| - 1]) || Yields(ps[|ps| - 1], u)
  {
  }

  /** Every collected href comes from some `dt` below the list. */
  lemma {:induction false} HrefsFromDts(ps: seq<seq<Node>>, u: string)
    requires forall k :: 0 <= k < |ps| ==> |ps[k]| > 0
    requires u in Hrefs(ps)
    ensures exists k :: 0 <= k < |ps| && Yields(ps[k], u)
    decreases |ps|
  {
    var init := ps[..|ps| - 1];
    HrefsStep(ps, u);
    if u in Hrefs(init) {
      HrefsFromDts(init, u);
      var k :| 0 <= k < |init| && Yields(init[k], u);
      assert ps[k] == init[k];
    } else {
      assert Yields(ps[|ps| - 1], u);
    }
  }

  /** Every `dt` below the list that yields an href has it collected. */
  lemma {:induction false} DtsToHrefs(ps: seq<seq<Node>>, u: string, k: nat)
    requires forall k :: 0 <= k < |ps| ==> |ps[k]| > 0
    requires k < |ps| && Yields(ps[k], u)
    ensures u in Hrefs(ps)
    decreases |ps|
  {
    var init := ps[..|ps| - 1];
    if k < |init| {
      assert init[k] == ps[k];
      DtsToHrefs(init, u, k);
      HrefsKeep(ps, u);
    } else {
      HrefsAdd(ps, u);
    }
  }

  lemma HrefsKeep(ps: seq<seq<Node>>, u: string)
    requires |ps| > 0 && forall k :: 0 <= k < |ps| ==> |ps[k]| > 0
    requires u in Hrefs(ps[..|ps| - 1])
    ensures u in Hrefs(ps)
  {
  }

  lemma HrefsAdd(ps: seq<seq<Node>>, u: string)
    requires |ps| > 0 && forall k :: 0 <= k < |ps| ==> |ps[k]| > 0
    requires Yields(ps[|ps| - 1], u)
    ensures u in Hrefs(ps)
  {
  }

  /** An href is collected exactly when some `dt` below the list yields it. */
  lemma {:induction false} HrefsMembers(ps: seq<seq<Node>>, u: string)
    requires forall k :: 0 <= k < |ps| ==> |ps[k]| > 0
    ensures u in Hrefs(ps) <==> exists k :: 0 <= k < |ps| && Yields(ps[k], u)
  {
    if u in Hrefs(ps) {
      HrefsFromDts(ps, u);
    }
    if exists k :: 0 <= k < |ps| && Yields(ps[k], u) {
      var k :| 0 <= k < |ps| && Yields(ps[k], u);
      DtsToHrefs(ps, u, k);
    }
  }

  // ---------------------------------------------------------------------------
  // Deduplication and output

  predicate NoDuplicates(xs: seq<string>) {
    forall i, j :: 0 <= i < j < |xs| ==> xs[i] != xs[j]
  }

  /** `list(set(urls))`. Python's set order is arbitrary; this keeps first
      occurrences, and only the elements matter to the written output. */
  function Dedupe(xs: seq<string>): (r: seq<string>)
    ensures NoDuplicates(r)
    ensures forall x :: x in r <==> x in xs
  {
    if |xs| == 0 then []
    else
      var init := xs[..|xs| - 1];
      var r := Dedupe(init);
      assert forall x :: x in init ==> x in xs;
      if xs[|xs| - 1] in r then r else r + [xs[|xs| - 1]]
  }

  /** `extract_folder_urls`: the distinct hrefs of the folder's `dt` entries,
      or nothing when no heading matches or no `dl` follows it. */
  function ExtractFolderUrls(doc: seq<Node>, folderName: string): (urls: seq<string>)
    ensures NoDuplicates(urls)
    ensures !(FindFolder(doc, folderName).Found? && FindFolder(doc, folderName).dl.Some?) ==> urls == []
    ensures FindFolder(doc, folderName).Found? && FindFolder(doc, folderName).dl.Some? ==>
      var ps := Preorder(FindFolder(doc, folderName).dl.value.children);
      forall u :: u in urls <==> exists k :: 0 <= k < |ps| && Yields(ps[k], u)
  {
    match FindFolder(doc, folderName)
    case NotFound => []
    case Found(None) => []
    case Found(Some(dl)) =>
      var ps := Preorder(dl.children);
      DedupedHrefs(ps);
      Dedupe(Hrefs(ps))
  }

  /** The distinct hrefs of a list are exactly what its `dt` entries yield. */
  lemma DedupedHrefs(ps: seq<seq<Node>>)
    requires forall k :: 0 <= k < |ps| ==> |ps[k]| > 0
    ensures forall u :: u in Dedupe(Hrefs(ps)) <==> exists k :: 0 <= k < |ps| && Yields(ps[k], u)
  {
    forall u
      ensures u in Dedupe(Hrefs(ps)) <==> exists k :: 0 <= k < |ps| && Yields(ps[k], u)
    {
      HrefsMembers(ps, u);
    }
  }

  /** The lines written to the output file, each followed by a newline;
      no file at all when there is nothing to write. */
  function Output(urls: seq<string>): (lines: Option<seq<string>>)
    ensures lines.None? <==> urls == []
    ensures lines.Some? ==> Sorting.Sorted(lines.value) && multiset(lines.value) == multiset(urls)
  {
    if urls == [] then None else Some(Sorting.Sort(urls))
  }

  /** A duplicate-free list holds each of its elements exactly once. */
  lemma {:induction false} DistinctCounts(a: seq<string>)
    requires NoDuplicates(a)
    ensures forall x :: multiset(a)[x] == (if x in a then 1 else 0)
    decreases |a|
  {
    if |a| > 0 {
      var init := a[..|a| - 1];
      var last := a[|a| - 1];
      assert forall i :: 0 <= i < |init| ==> init[i] == a[i];
      DistinctCounts(init);
      assert a == init + [last];
      assert last !in init;
      forall x ensures multiset(a)[x] == (if x in a then 1 else 0) {
        assert multiset(a) == multiset(init) + multiset{last};
        assert x in a <==> x in init || x == last;
      }
    }
  }

  /** Two duplicate-free lists with the same elements hold the same multiset. */
  lemma SameElementsSameMultiset(a: seq<string>, b: seq<string>)
    requires NoDuplicates(a) && NoDuplicates(b)
    requires forall x :: x in a <==> x in b
    ensures multiset(a) == multiset(b)
  {
    DistinctCounts(a);
    DistinctCounts(b);
    assert forall x :: multiset(a)[x] == multiset(b)[x];
  }

  /** Whatever order the set yields its URLs in, the written file is the same. */
  lemma OutputIgnoresSetOrder(doc: seq<Node>, folderName: string, enumeration: seq<string>)
    requires NoDuplicates(enumeration)
    requires forall u :: u in enumeration <==> u in ExtractFolderUrls(doc, folderName)
    ensures Output(enumeration) == Output(ExtractFolderUrls(doc, folderName))
  {
    var urls := ExtractFolderUrls(doc, folderName);
    SameElementsSameMultiset(enumeration, urls);
    if enumeration != [] {
      Sorting.SortIgnoresInputOrder(enumeration, urls);
    } else {
      assert |multiset(urls)| == 0;
    }
  }
}

=== FILE: dates.dfy ===
/** `datetime.strptime(s, "%Y-%m-%dT%H:%M:%S.000Z").strftime("%m/%d/%Y")`,
    with "Unknown Date" when parsing fails, for the zero-padded form. */
module Dates {
  import opened Strings

  const UnknownDate := "Unknown Date"

  /** A calendar date and time of day as Python's `datetime` accepts it. */
  datatype Stamp = Stamp(year: nat, month: nat, day: nat, hour: nat, minute: nat, second: nat)

  predicate IsLeapYear(y: nat) {
    y % 4 == 0 && (y % 100 != 0 || y % 400 == 0)
  }

  function DaysInMonth(y: nat, m: nat): nat
    requires 1 <= m <= 12
  {
    if m == 2 then (if IsLeapYear(y) then 29 else 28)
    else if m == 4 || m == 6 || m == 9 || m == 11 then 30
    else 31
  }

  /** `datetime` refuses year 0 and anything out of range. */
  predicate Valid(t: Stamp) {
    && 1 <= t.year <= 9999
    && 1 <= t.month <= 12
    && 1 <= t.day <= DaysInMonth(t.year, t.month)
    && t.hour < 24 && t.minute < 60 && t.second < 60
  }

  // ---------------------------------------------------------------------------
  // Decimal digits

  function Pow10(n: nat): (p: nat)
    ensures p >= 1
  {
    if n == 0 then 1 else 10 * Pow10(n - 1)
  }

  function DigitChar(d: nat): (c: char)
    requires d < 10
    ensures IsDigit(c)
  {
    ('0' as int + d) as char
  }

  function DigitValue(c: char): (d: nat)
    requires IsDigit(c)
    ensures d < 10 && DigitChar(d) == c
  {
    c as int - '0' as int
  }

  /** The value of a string of decimal digits. */
  function Number(s: string): (n: nat)
    requires AllDigits(s)
    ensures n < Pow10(|s|)
  {
    if |s| == 0 then 0 else 10 * Number(s[..|s| - 1]) + DigitValue(s[|s| - 1])
  }

  /** `n` written with exactly `width` digits, zero-padded (as `%02d`, `%04d`). */
  function Pad(n: nat, width: nat): (s: string)
    ensures |s| == width && AllDigits(s)
  {
    if width == 0 then [] else Pad(n / 10, width - 1) + [DigitChar(n % 10)]
  }

  lemma {:induction false} NumberOfPad(n: nat, width: nat)
    requires n < Pow10(width)
    ensures Number(Pad(n, width)) == n
    decreases width
  {
    if width > 0 {
      var s := Pad(n, width);
      assert s[..|s| - 1] == Pad(n / 10, width - 1);
      NumberOfPad(n / 10, width - 1);
    }
  }

  lemma {:induction false} PadOfNumber(s: string)
    requires AllDigits(s)
    ensures Pad(Number(s), |s|) == s
    decreases |s|
  {
    if |s| > 0 {
      var init := s[..|s| - 1];
      var d := DigitValue(s[|s| - 1]);
      assert Number(s) == 10 * Number(init) + d;
      assert Number(s) / 10 == Number(init) && Number(s) % 10 == d;
      PadOfNumber(init);
      assert Pad(Number(s), |s|) == init + [DigitChar(d)];
      assert s == init + [s[|s| - 1]];
    }
  }

  // ---------------------------------------------------------------------------
  // The fixed format

  /** Positions of the digit fields in `YYYY-MM-DDTHH:MM:SS.000Z`. */
  predicate Shaped(s: string) {
    && |s| == 24
    && AllDigits(s[0..4]) && s[4] == '-'
    && AllDigits(s[5..7]) && s[7] == '-'
    && AllDigits(s[8..10]) && s[10] == 'T'
    && AllDigits(s[11..13]) && s[13] == ':'
    && AllDigits(s[14..16]) && s[16] == ':'
    && AllDigits(s[17..19]) && s[19..24] == ".000Z"
  }

  function Parse(s: string): Stamp
    requires Shaped(s)
  {
    Stamp(Number(s[0..4]), Number(s[5..7]), Number(s[8..10]),
          Number(s[11..13]), Number(s[14..16]), Number(s[17..19]))
  }

  /** The string a valid stamp is written as, in the expected input format. */
  function Render(t: Stamp): string
    requires Valid(t)
  {
    Pad(t.year, 4) + "-" + Pad(t.month, 2) + "-" + Pad(t.day, 2) + "T" +
    Pad(t.hour, 2) + ":" + Pad(t.minute, 2) + ":" + Pad(t.second, 2) + ".000Z"
  }

  /** `%m/%d/%Y` of a stamp. */
  function MonthDayYear(t: Stamp): string {
    Pad(t.month, 2) + "/" + Pad(t.day, 2) + "/" + Pad(t.year, 4)
  }

  /** The formatted date of a post, or "Unknown Date". */
  function FormatDate(s: string): (r: string)
    ensures r == UnknownDate ||
      (|r| == 10 && AllDigits(r[..2]) && r[2] == '/' && AllDigits(r[3..5]) && r[5] == '/' && AllDigits(r[6..]))
  {
    if Shaped(s) && Valid(Parse(s)) then MonthDayYear(Parse(s)) else UnknownDate
  }

  /** Where each field of a rendered stamp sits. */
  lemma RenderFields(t: Stamp)
    requires Valid(t)
    ensures var s := Render(t);
      && |s| == 24
      && s[0..4] == Pad(t.year, 4) && s[4] == '-'
      && s[5..7] == Pad(t.month, 2) && s[7] == '-'
      && s[8..10] == Pad(t.day, 2) && s[10] == 'T'
      && s[11..13] == Pad(t.hour, 2) && s[13] == ':'
      && s[14..16] == Pad(t.minute, 2) && s[16] == ':'
      && s[17..19] == Pad(t.second, 2) && s[19..24] == ".000Z"
  {
  }

  /** Every valid stamp, written in the input format, is reformatted to its
      own month, day and year. */
  lemma FormatRendered(t: Stamp)
    requires Valid(t)
    ensures FormatDate(Render(t)) == MonthDayYear(t)
  {
    var s := Render(t);
    RenderFields(t);
    NumberOfPad(t.year, 4);
    NumberOfPad(t.month, 2);
    NumberOfPad(t.day, 2);
    NumberOfPad(t.hour, 2);
    NumberOfPad(t.minute, 2);
    NumberOfPad(t.second, 2);
    assert Shaped(s);
    assert Parse(s) == t;
  }

  /** A 24-character string is the concatenation of its fields and separators. */
  lemma Pieces(s: string)
    requires |s| == 24
    ensures s == s[0..4] + [s[4]] + s[5..7] + [s[7]] + s[8..10] + [s[10]] + s[11..13] + [s[13]]
                 + s[14..16] + [s[16]] + s[17..19] + s[19..24]
  {
  }

  /** Only such strings are: any input that is not "Unknown Date" after
      formatting is the rendering of a valid stamp. */
  lemma FormatOnlyRendered(s: string)
    requires FormatDate(s) != UnknownDate
    ensures Shaped(s) && Valid(Parse(s)) && Render(Parse(s)) == s
  {
    PadOfNumber(s[0..4]);
    PadOfNumber(s[5..7]);
    PadOfNumber(s[8..10]);
    PadOfNumber(s[11..13]);
    PadOfNumber(s[14..16]);
    PadOfNumber(s[17..19]);
    Pieces(s);
  }

  /** The output reuses the input's own digits: month, day, then year. */
  lemma FormatKeepsDigits(s: string)
    requires FormatDate(s) != UnknownDate
    ensures FormatDate(s) == s[5..7] + "/" + s[8..10] + "/" + s[0..4]
  {
    PadOfNumber(s[0..4]);
    PadOfNumber(s[5..7]);
    PadOfNumber(s[8..10]);
  }

  lemma NumberOfTwo(s: string)
    requires |s| == 2 && AllDigits(s)
    ensures Number(s) == 10 * DigitValue(s[0]) + DigitValue(s[1])
  {
  }

  lemma NumberOfFour(s: string)
    requires |s| == 4 && AllDigits(s)
    ensures Number(s) == 1000 * DigitValue(s[0]) + 100 * DigitValue(s[1])
                         + 10 * DigitValue(s[2]) + DigitValue(s[3])
  {
    assert s[..3][..2] == s[..2];
    NumberOfTwo(s[..2]);
  }

  const Example := "2024-03-05T10:00:00.000Z"

  lemma ExampleShaped()
    ensures Shaped(Example)
  {
  }

  lemma ExampleParsed()
    requires Shaped(Example)
    ensures Parse(Example) == Stamp(2024, 3, 5, 10, 0, 0)
  {
    NumberOfFour(Example[0..4]);
    NumberOfTwo(Example[5..7]);
    NumberOfTwo(Example[8..10]);
    NumberOfTwo(Example[11..13]);
    NumberOfTwo(Example[14..16]);
    NumberOfTwo(Example[17..19]);
  }

  /** The worked example: 5 March 2024 at 10:00. */
  lemma FormatExample()
    ensures FormatDate(Example) == "03/05/2024"
  {
    ExampleShaped();
    ExampleParsed();
    assert MonthDayYear(Stamp(2024, 3, 5, 10, 0, 0)) == "03/05/2024";
  }

  const OddMilliseconds := "2024-03-05T10:00:00.123Z"

  /** Milliseconds other than `000` do not fit the format. */
  lemma MillisecondsMustBeZero()
    ensures FormatDate(OddMilliseconds) == UnknownDate
  {
    assert OddMilliseconds[19..24][1] == '1';
    assert !Shaped(OddMilliseconds);
  }

  const NotALeapDay := "2023-02-29T10:00:00.000Z"

  lemma NotALeapDayParsed()
    requires Shaped(NotALeapDay)
    ensures Parse(NotALeapDay).year == 2023 && Parse(NotALeapDay).month == 2 && Parse(NotALeapDay).day == 29
  {
    NumberOfFour(NotALeapDay[0..4]);
    NumberOfTwo(NotALeapDay[5..7]);
    NumberOfTwo(NotALeapDay[8..10]);
  }

  /** 2023 is not a leap year, so 29 February 2023 is rejected. */
  lemma NoSuchDay()
    ensures FormatDate(NotALeapDay) == UnknownDate
  {
    if Shaped(NotALeapDay) {
      NotALeapDayParsed();
    }
  }
}

=== FILE: extraction.dfy ===
/** What `extract_post_details` reads from one post element of a loaded page,
    and the record it builds from it. The browser is replaced by a value that
    says, for each selector, whether an element was found. */
module Extraction {
  import opened Wrappers
  import opened Strings
  import opened PostRecord

  /** Outcome of `find_element` for one selector: the value read from the
      element, or the message of the `NoSuchElementException`. */
  datatype Lookup<T> = Found(value: T) | Missing(message: string)

  /** Outcome of `driver.save_screenshot`: it returned without raising
      (whatever it returned, which the script ignores), or the message of
      the exception it raised. */
  datatype Shot = Saved | ShotFailed(message: string)

  /** One engagement counter: its `aria-label` attribute (`None` when the
      attribute is absent) and its visible text. */
  datatype Stat = Stat(ariaLabel: Option<string>, text: string)

  /** What the page offers for one post element. */
  datatype PostElement = PostElement(
    handle: Lookup<string>,           // text of the author link
    datetime: Lookup<Option<string>>, // `datetime` attribute of the <time> element
    content: Lookup<string>,          // text of the post body
    stats: seq<Stat>,                 // every counter in the action bar, in page order
    shot: Shot)                       // the screenshot taken while extracting it

  const ExtractionFailed := "Extraction failed: "
  const ScreenshotFailed := "Screenshot failed: "

  // ---------------------------------------------------------------------------
  // Engagement counters

  datatype Category = Comments | Reposts | Likes | Views | Unclassified

  /** The keyword rule on a lower-cased aria-label, tried in priority order. */
  function Classify(ariaLabel: string): (c: Category)
    ensures var l := Lower(ariaLabel);
      && (c == Comments <==> Occurs("reply", l) || Occurs("comment", l))
      && (c == Reposts <==> !Occurs("reply", l) && !Occurs("comment", l)
                            && (Occurs("repost", l) || Occurs("retweet", l)))
      && (c == Likes <==> !Occurs("reply", l) && !Occurs("comment", l)
                          && !Occurs("repost", l) && !Occurs("retweet", l) && Occurs("like", l))
      && (c == Views <==> !Occurs("reply", l) && !Occurs("comment", l)
                          && !Occurs("repost", l) && !Occurs("retweet", l)
                          && !Occurs("like", l) && Occurs("view", l))
  {
    var l := Lower(ariaLabel);
    if Contains(l, "reply") || Contains(l, "comment") then Comments
    else if Contains(l, "repost") || Contains(l, "retweet") then Reposts
    else if Contains(l, "like") then Likes
    else if Contains(l, "view") then Views
    else Unclassified
  }

  /** A stat whose aria-label is missing or empty is ignored; any other
      label is classified by `Classify`. */
  function StatCategory(st: Stat): (c: Category)
    ensures st.ariaLabel.None? || st.ariaLabel == Some("") ==> c == Unclassified
    ensures st.ariaLabel.Some? && st.ariaLabel.value != "" ==> c == Classify(st.ariaLabel.value)
  {
    match st.ariaLabel
    case None => Unclassified
    case Some(l) => if l == "" then Unclassified else Classify(l)
  }

  /** The value stored for a counter: its text, or "0" when the text is empty. */
  function CountText(text: string): (v: string)
    ensures v != ""
    ensures text != "" ==> v == text
    ensures text == "" ==> v == "0"
  {
    if text == "" then "0" else text
  }

  datatype Counters = Counters(likes: string, reposts: string, comments: string, views: string) {
    function Get(k: Category): string {
      match k
      case Likes => likes
      case Reposts => reposts
      case Comments => comments
      case Views => views
      case Unclassified => ""
    }

    /** The counters with `k` set to `v`; `Unclassified` sets nothing. */
    function With(k: Category, v: string): (r: Counters)
      ensures forall k' :: k' != Unclassified ==> r.Get(k') == (if k' == k then v else Get(k'))
    {
      match k
      case Comments => this.(comments := v)
      case Reposts => this.(reposts := v)
      case Likes => this.(likes := v)
      case Views => this.(views := v)
      case Unclassified => this
    }
  }

  /** Every counter starts at "0". */
  const Zero := Counters("0", "0", "0", "0")

  /** One pass of the loop body: the stat's category gets its text. */
  function Observe(c: Counters, st: Stat): (r: Counters)
    ensures forall k :: k != Unclassified ==>
      r.Get(k) == (if StatCategory(st) == k then CountText(st.text) else c.Get(k))
  {
    c.With(StatCategory(st), CountText(st.text))
  }

  /** The loop over `stats` in page order, for any way of putting a stat in
      a category: each stat's category gets its count text. */
  function TallyBy(stats: seq<Stat>, category: Stat -> Category): (c: Counters)
    ensures c.likes != "" && c.reposts != "" && c.comments != "" && c.views != ""
  {
    if |stats| == 0 then Zero
    else
      var last := stats[|stats| - 1];
      TallyBy(stats[..|stats| - 1], category).With(category(last), CountText(last.text))
  }

  /** The counters after the loop over `stats` in page order. */
  function Tally(stats: seq<Stat>): (c: Counters)
    ensures c.likes != "" && c.reposts != "" && c.comments != "" && c.views != ""
    ensures |stats| > 0 ==> c == Observe(Tally(stats[..|stats| - 1]), stats[|stats| - 1])
  {
    TallyBy(stats, StatCategory)
  }

  /** The last stat of category `k` decides counter `k`, for any categorising. */
  lemma {:induction false} LastWinsBy(stats: seq<Stat>, category: Stat -> Category, k: Category, j: nat)
    requires k != Unclassified
    requires j < |stats| && category(stats[j]) == k
    requires forall i :: j < i < |stats| ==> category(stats[i]) != k
    ensures TallyBy(stats, category).Get(k) == CountText(stats[j].text)
    decreases |stats|
  {
    var n := |stats| - 1;
    var init := stats[..n];
    if j < n {
      assert init[j] == stats[j];
      assert forall i :: j < i < |init| ==> init[i] == stats[i];
      LastWinsBy(init, category, k, j);
    }
  }

  /** A category no stat belongs to keeps its "0", for any categorising. */
  lemma {:induction false} UnseenBy(stats: seq<Stat>, category: Stat -> Category, k: Category)
    requires k != Unclassified
    requires forall i :: 0 <= i < |stats| ==> category(stats[i]) != k
    ensures TallyBy(stats, category).Get(k) == "0"
    decreases |stats|
  {
    if |stats| > 0 {
      var init := stats[..|stats| - 1];
      assert forall i :: 0 <= i < |init| ==> init[i] == stats[i];
      UnseenBy(init, category, k);
    }
  }

  /** The last stat of a category decides that counter; later stats of other
      categories and ignored stats change nothing. */
  lemma TallyLastWins(stats: seq<Stat>, k: Category, j: nat)
    requires k != Unclassified
    requires j < |stats| && StatCategory(stats[j]) == k
    requires forall i :: j < i < |stats| ==> StatCategory(stats[i]) != k
    ensures Tally(stats).Get(k) == CountText(stats[j].text)
  {
    LastWinsBy(stats, StatCategory, k, j);
  }

  /** A category no stat belongs to keeps its "0". */
  lemma TallyUnseen(stats: seq<Stat>, k: Category)
    requires k != Unclassified
    requires forall i :: 0 <= i < |stats| ==> StatCategory(stats[i]) != k
    ensures Tally(stats).Get(k) == "0"
  {
    UnseenBy(stats, StatCategory, k);
  }

  // ---------------------------------------------------------------------------
  // Post id and screenshot names

  const StatusMarker := "status/"
  const UnknownId := "unknown"
  const ParentSuffix := "_parent"

  /** `status/` starts at `p` and is followed by a digit: where `status/(\d+)` can match. */
  predicate StatusAt(url: string, p: nat) {
    p + |StatusMarker| + 1 <= |url| && url[p..p + |StatusMarker|] == StatusMarker
    && IsDigit(url[p + |StatusMarker|])
  }

  /** The leftmost match position at or after `from`. */
  function FirstStatus(url: string, from: nat): (p: Option<nat>)
    ensures p.Some? ==> from <= p.value && StatusAt(url, p.value)
    ensures p.Some? ==> forall q :: from <= q < p.value ==> !StatusAt(url, q)
    ensures p.None? ==> forall q :: from <= q ==> !StatusAt(url, q)
    decreases |url| - from
  {
    if from + |StatusMarker| + 1 > |url| then None
    else if StatusAt(url, from) then Some(from)
    else FirstStatus(url, from + 1)
  }

  /** Length of the run of digits starting at `i` (the greedy `\d+`). */
  function DigitRun(s: string, i: nat): (n: nat)
    requires i <= |s|
    ensures i + n <= |s|
    ensures AllDigits(s[i..i + n])
    ensures i + n == |s| || !IsDigit(s[i + n])
    decreases |s| - i
  {
    if i < |s| && IsDigit(s[i]) then
      var n := DigitRun(s, i + 1);
      assert s[i..i + 1 + n] == [s[i]] + s[i + 1..i + 1 + n];
      1 + n
    else 0
  }

  /** `re.search(r'status/(\d+)', url)`: the digits after the leftmost
      `status/` that is followed by a digit, or "unknown". */
  function PostId(url: string): (id: string)
    ensures FirstStatus(url, 0).None? ==> id == UnknownId
    ensures FirstStatus(url, 0).Some? ==>
      var start := FirstStatus(url, 0).value + |StatusMarker|;
      && |id| > 0 && AllDigits(id)
      && start + |id| <= |url| && url[start..start + |id|] == id
      && (start + |id| == |url| || !IsDigit(url[start + |id|]))
    ensures id == UnknownId <==> forall q :: 0 <= q ==> !StatusAt(url, q)
  {
    match FirstStatus(url, 0)
    case None => UnknownId
    case Some(p) =>
      var start := p + |StatusMarker|;
      var id := url[start..start + DigitRun(url, start)];
      assert !IsDigit(UnknownId[0]);
      assert id != UnknownId by { if |id| == |UnknownId| { assert id[0] != UnknownId[0]; } }
      id
  }

  /** `os.path.join(a, b)` on POSIX. */
  function PathJoin(a: string, b: string): (r: string)
    ensures EndsWith(r, b)
    ensures StartsWith(b, "/") ==> r == b
    ensures !StartsWith(b, "/") ==> StartsWith(r, a)
    ensures !StartsWith(b, "/") && (a == "" || EndsWith(a, "/")) ==> |r| == |a| + |b|
    ensures !StartsWith(b, "/") && a != "" && !EndsWith(a, "/") ==>
      |r| == |a| + 1 + |b| && r[|a|] == '/'
  {
    if StartsWith(b, "/") then b
    else if a == "" || a[|a| - 1] == '/' then
      assert (a + b)[|a + b| - |b|..] == b;
      a + b
    else
      assert (a + "/" + b)[|a + "/" + b| - |b|..] == b;
      assert (a + "/" + b)[..|a|] == a;
      a + "/" + b
  }

  /** Where the screenshot for `suffix` is written: `images_dir/<suffix>.png`. */
  function ScreenshotPath(imagesDir: string, suffix: string): string {
    PathJoin(imagesDir, suffix + ".png")
  }

  // ---------------------------------------------------------------------------
  // Record assembly

  /** Handle, time and content were all found. */
  predicate Complete(el: PostElement) {
    el.handle.Found? && el.datetime.Found? && el.content.Found?
  }

  /** The message of the first required selector that found nothing. */
  function FirstMissing(el: PostElement): string
    requires !Complete(el)
  {
    if el.handle.Missing? then el.handle.message
    else if el.datetime.Missing? then el.datetime.message
    else el.content.message
  }

  function AttributeField(v: Option<string>): Field {
    match v
    case None => Null
    case Some(s) => Str(s)
  }

  /** The dict returned by `extract_post_details`. Fields read before a
      missing selector stay in it next to the extraction error. */
  function ExtractPostDetails(el: PostElement, imagesDir: string, suffix: string): (d: Record)
    ensures d.url == Absent && d.parentPost.None?
    ensures el.handle.Found? <==> d.handle != Absent
    ensures el.handle.Found? ==> d.handle == Str(el.handle.value)
    ensures el.handle.Found? && el.datetime.Found? <==> d.datetime != Absent
    ensures el.handle.Found? && el.datetime.Found? ==> d.datetime == AttributeField(el.datetime.value)
    ensures Complete(el) <==> d.content != Absent
    ensures Complete(el) ==> d.content == Str(el.content.value)
    ensures !Complete(el) ==>
      && d.error == Str(ExtractionFailed + FirstMissing(el))
      && d.likes == Absent && d.reposts == Absent && d.comments == Absent && d.views == Absent
      && d.screenshotFile == Absent
    ensures Complete(el) ==>
      && d.screenshotFile == Str(ScreenshotPath(imagesDir, suffix))
      && d.likes == Str(Tally(el.stats).likes) && d.reposts == Str(Tally(el.stats).reposts)
      && d.comments == Str(Tally(el.stats).comments) && d.views == Str(Tally(el.stats).views)
      && (el.shot.Saved? <==> d.error == Absent)
      && (el.shot.ShotFailed? ==> d.error == Str(ScreenshotFailed + el.shot.message))
  {
    match el.handle
    case Missing(m) => Empty.(error := Str(ExtractionFailed + m))
    case Found(h) =>
      match el.datetime
      case Missing(m) => Empty.(handle := Str(h), error := Str(ExtractionFailed + m))
      case Found(dt) =>
        var timed := Empty.(handle := Str(h), datetime := AttributeField(dt));
        match el.content
        case Missing(m) => timed.(error := Str(ExtractionFailed + m))
        case Found(c) =>
          var counts := Tally(el.stats);
          var error := match el.shot
            case Saved => Absent
            case ShotFailed(m) => Str(ScreenshotFailed + m);
          timed.(content := Str(c),
                 likes := Str(counts.likes), reposts := Str(counts.reposts),
                 comments := Str(counts.comments), views := Str(counts.views),
                 screenshotFile := Str(ScreenshotPath(imagesDir, suffix)),
                 error := error)
  }
}

=== FILE: post_record.dfy ===
/** The post record: one JSON document per scraped URL in the local store.
    The scripts build it as a Python dict, so every key may be missing, may
    hold `None` (JSON `null`), or may hold a string. */
module PostRecord {
  import opened Wrappers

  /** The value under one key of the record. */
  datatype Field = Absent | Null | Str(s: string)

  datatype Record = Record(
    url: Field,
    error: Field,
    handle: Field,
    datetime: Field,
    content: Field,
    likes: Field,
    reposts: Field,
    comments: Field,
    views: Field,
    screenshotFile: Field,
    parentPost: Option<Record>)  // `None` when the key `parent_post` is absent

  /** The empty dict `{}`. */
  const Empty := Record(Absent, Absent, Absent, Absent, Absent, Absent,
                        Absent, Absent, Absent, Absent, None)

  /** Python truthiness of `record.get(key)`: only a non-empty string is true. */
  predicate Truthy(f: Field) {
    f.Str? && f.s != ""
  }

  /** `base.update(extra)`: every key present in `extra` overwrites `base`,
      every key absent from it keeps the value `base` had. */
  function Update(base: Record, extra: Record): (r: Record)
    ensures r.url == Pick(base.url, extra.url)
    ensures r.error == Pick(base.error, extra.error)
    ensures r.handle == Pick(base.handle, extra.handle)
    ensures r.datetime == Pick(base.datetime, extra.datetime)
    ensures r.content == Pick(base.content, extra.content)
    ensures r.likes == Pick(base.likes, extra.likes)
    ensures r.reposts == Pick(base.reposts, extra.reposts)
    ensures r.comments == Pick(base.comments, extra.comments)
    ensures r.views == Pick(base.views, extra.views)
    ensures r.screenshotFile == Pick(base.screenshotFile, extra.screenshotFile)
    ensures extra.parentPost.Some? ==> r.parentPost == extra.parentPost
    ensures extra.parentPost.None? ==> r.parentPost == base.parentPost
    ensures extra == Empty ==> r == base
  {
    Record(
      Pick(base.url, extra.url),
      Pick(base.error, extra.error),
      Pick(base.handle, extra.handle),
      Pick(base.datetime, extra.datetime),
      Pick(base.content, extra.content),
      Pick(base.likes, extra.likes),
      Pick(base.reposts, extra.reposts),
      Pick(base.comments, extra.comments),
      Pick(base.views, extra.views),
      Pick(base.screenshotFile, extra.screenshotFile),
      if extra.parentPost.Some? then extra.parentPost else base.parentPost)
  }

  /** The value a key holds after the update: the incoming one unless the key
      is absent from the incoming dict. */
  function Pick(current: Field, incoming: Field): (f: Field)
    ensures incoming != Absent ==> f == incoming
    ensures incoming == Absent ==> f == current
  {
    if incoming == Absent then current else incoming
  }
}

=== FILE: scraper.dfy ===
/** The scraping driver: reading the URL list (`read_urls`) and the per-URL
    store update of `process_urls`, with the store as a list of records in
    insertion order and the browser as one load outcome per visited URL. */
module Scraper {
  import opened Wrappers
  import opened Strings
  import opened PostRecord
  import opened Extraction

  // ---------------------------------------------------------------------------
  // The URL list

  /** Why `read_urls` exits the program. */
  datatype UrlFileError = FileMissing | NoUrls

  /** Length of the first line of `text`, its newline included. */
  function LineLength(text: string): (n: nat)
    requires |text| > 0
    ensures 1 <= n <= |text|
    ensures forall k :: 0 <= k < n - 1 ==> text[k] != '\n'
    ensures n == |text| || text[n - 1] == '\n'
  {
    if text[0] == '\n' || |text| == 1 then 1 else 1 + LineLength(text[1..])
  }

  /** A line as file iteration yields it: non-empty, with a newline at most
      as its last character. */
  predicate IsLine(l: string) {
    l != [] && forall k :: 0 <= k < |l| - 1 ==> l[k] != '\n'
  }

  /** The first line of a non-empty text is a line. */
  lemma FirstLineIsLine(text: string)
    requires |text| > 0
    ensures IsLine(text[..LineLength(text)])
  {
    var n := LineLength(text);
    var line := text[..n];
    forall k | 0 <= k < n - 1 ensures line[k] != '\n' {
      assert line[k] == text[k];
    }
  }

  /** The first line and the text after it make up the text, and when more
      text follows, the first line ends in a newline. */
  lemma FirstLineEnds(text: string)
    requires |text| > 0
    ensures text[..LineLength(text)] + text[LineLength(text)..] == text
    ensures LineLength(text) < |text| ==> EndsWith(text[..LineLength(text)], "\n")
  {
    var n := LineLength(text);
    assert text[..n] + text[n..] == text;
    if n < |text| {
      var line := text[..n];
      assert line[n - 1] == '\n';
      assert line[n - 1..] == "\n";
    }
  }

  /** A line in front of well-formed lines keeps them well formed, as long
      as it ends in a newline when lines follow it. */
  lemma ConsLines(first: string, rest: seq<string>)
    requires IsLine(first) && (|rest| > 0 ==> EndsWith(first, "\n"))
    requires forall i :: 0 <= i < |rest| ==> IsLine(rest[i])
    requires forall i :: 0 <= i < |rest| - 1 ==> EndsWith(rest[i], "\n")
    ensures forall i :: 0 <= i < |[first] + rest| ==> IsLine(([first] + rest)[i])
    ensures forall i :: 0 <= i < |[first] + rest| - 1 ==> EndsWith(([first] + rest)[i], "\n")
  {
    var lines := [first] + rest;
    forall i | 0 < i < |lines|
      ensures lines[i] == rest[i - 1]
    {
    }
  }

  /** Iterating over a text file: lines keep their newline, only the last
      may lack one, and together they give back the whole text. */
  function SplitLines(text: string): (lines: seq<string>)
    ensures Concat(lines) == text
    ensures forall i :: 0 <= i < |lines| ==> IsLine(lines[i])
    ensures forall i :: 0 <= i < |lines| - 1 ==> EndsWith(lines[i], "\n")
    decreases |text|
  {
    if |text| == 0 then []
    else
      var n := LineLength(text);
      var rest := SplitLines(text[n..]);
      FirstLineIsLine(text);
      FirstLineEnds(text);
      ConcatCons(text[..n], rest);
      ConsLines(text[..n], rest);
      [text[..n]] + rest
  }

  /** The stripped non-blank lines, in file order. */
  function Urls(lines: seq<string>): (urls: seq<string>)
    ensures |urls| <= |lines|
    ensures forall j :: 0 <= j < |urls| ==>
      urls[j] != [] && !IsSpace(urls[j][0]) && !IsSpace(urls[j][|urls[j]| - 1])
  {
    if |lines| == 0 then []
    else
      var last := Strip(lines[|lines| - 1]);
      if last == [] then Urls(lines[..|lines| - 1]) else Urls(lines[..|lines| - 1]) + [last]
  }

  /** One more line adds its stripped text, unless it is blank. */
  lemma UrlsStep(lines: seq<string>)
    requires |lines| > 0
    ensures var last := Strip(lines[|lines| - 1]);
      Urls(lines) == Urls(lines[..|lines| - 1]) + (if last == [] then [] else [last])
  {
  }

  /** The URLs of one more line of a file. */
  lemma UrlsGrow(lines: seq<string>, i: nat)
    requires i < |lines|
    ensures var last := Strip(lines[i]);
      Urls(lines[..i + 1]) == Urls(lines[..i]) + (if last == [] then [] else [last])
  {
    assert lines[..i + 1][..i] == lines[..i];
    UrlsStep(lines[..i + 1]);
  }

  /** Every URL of the list is some line, stripped. */
  lemma {:induction false} UrlsFromLines(lines: seq<string>, u: string)
    requires u in Urls(lines)
    ensures exists i :: 0 <= i < |lines| && Strip(lines[i]) == u
    decreases |lines|
  {
    var init := lines[..|lines| - 1];
    UrlsStep(lines);
    if u in Urls(init) {
      UrlsFromLines(init, u);
      var i :| 0 <= i < |init| && Strip(init[i]) == u;
      assert lines[i] == init[i];
    } else {
      assert Strip(lines[|lines| - 1]) == u;
    }
  }

  /** Every non-blank line, stripped, is a URL of the list. */
  lemma {:induction false} LinesToUrls(lines: seq<string>, i: nat)
    requires i < |lines| && Strip(lines[i]) != []
    ensures Strip(lines[i]) in Urls(lines)
    decreases |lines|
  {
    var init := lines[..|lines| - 1];
    var last := Strip(lines[|lines| - 1]);
    UrlsStep(lines);
    var extra := if last == [] then [] else [last];
    assert Urls(lines) == Urls(init) + extra;
    if i < |init| {
      assert init[i] == lines[i];
      LinesToUrls(init, i);
      var k :| 0 <= k < |Urls(init)| && Urls(init)[k] == Strip(lines[i]);
      assert Urls(lines)[k] == Strip(lines[i]);
    } else {
      assert Urls(lines)[|Urls(init)|] == last;
    }
  }

  /** A string is a URL of the list exactly when it is a non-blank line, stripped. */
  lemma {:induction false} UrlsMembers(lines: seq<string>, u: string)
    ensures u in Urls(lines) <==> u != [] && exists i :: 0 <= i < |lines| && Strip(lines[i]) == u
  {
    if u in Urls(lines) {
      UrlsFromLines(lines, u);
    }
    if u != [] && exists i :: 0 <= i < |lines| && Strip(lines[i]) == u {
      var i :| 0 <= i < |lines| && Strip(lines[i]) == u;
      LinesToUrls(lines, i);
    }
  }

  /** Order is preserved: the URLs of two consecutive stretches of lines are
      the URLs of the first stretch followed by those of the second. */
  lemma {:induction false} UrlsAppend(a: seq<string>, b: seq<string>)
    ensures Urls(a + b) == Urls(a) + Urls(b)
    decreases |b|
  {
    if |b| > 0 {
      var b' := b[..|b| - 1];
      assert (a + b)[..|a + b| - 1] == a + b';
      UrlsAppend(a, b');
    } else {
      assert a + b == a;
    }
  }

  /** The list comprehension of `read_urls` as a loop over the lines. */
  method CollectUrls(lines: seq<string>) returns (urls: seq<string>)
    ensures urls == Urls(lines)
  {
    urls := [];
    var i := 0;
    while i < |lines|
      invariant i <= |lines|
      invariant urls == Urls(lines[..i])
    {
      var s := Strip(lines[i]);
      var extra := if s == [] then [] else [s];
      UrlsGrow(lines, i);
      urls := urls + extra;
      assert urls == Urls(lines[..i + 1]);
      i := i + 1;
    }
    assert lines[..|lines|] == lines;
  }

  /** `read_urls`: a missing file and a file without URLs end the program. */
  method ReadUrls(file: Option<string>) returns (r: Result<seq<string>, UrlFileError>)
    ensures file.None? ==> r == Failure(FileMissing)
    ensures file.Some? ==>
      var urls := Urls(SplitLines(file.value));
      r == if urls == [] then Failure(NoUrls) else Success(urls)
  {
    if file.None? {
      return Failure(FileMissing);
    }
    var urls := CollectUrls(SplitLines(file.value));
    if urls == [] {
      return Failure(NoUrls);
    }
    return Success(urls);
  }

  // ---------------------------------------------------------------------------
  // The store

  predicate HasUrl(r: Record, url: string) {
    r.url == Str(url)
  }

  /** The records stored for `url`, in store order (`db.search`). */
  function Only(store: seq<Record>, url: string): (rs: seq<Record>)
    ensures |rs| <= |store|
    ensures forall j :: 0 <= j < |rs| ==> HasUrl(rs[j], url) && rs[j] in store
    ensures rs == [] <==> forall i :: 0 <= i < |store| ==> !HasUrl(store[i], url)
  {
    if |store| == 0 then []
    else
      var init := store[..|store| - 1];
      var last := store[|store| - 1];
      var before := Only(init, url);
      assert forall i :: 0 <= i < |init| ==> init[i] == store[i];
      if HasUrl(last, url) then before + [last] else before
  }

  /** `db.remove(Query().url == url)`. */
  function Without(store: seq<Record>, url: string): (rs: seq<Record>)
    ensures |rs| <= |store|
    ensures forall j :: 0 <= j < |rs| ==> !HasUrl(rs[j], url) && rs[j] in store
  {
    if |store| == 0 then []
    else
      var init := store[..|store| - 1];
      var last := store[|store| - 1];
      var before := Without(init, url);
      if HasUrl(last, url) then before else before + [last]
  }

  /** Removing one URL's records leaves every other URL's records as they were. */
  lemma {:induction false} WithoutKeepsOthers(store: seq<Record>, url: string, other: string)
    requires other != url
    ensures Only(Without(store, url), other) == Only(store, other)
    decreases |store|
  {
    if |store| > 0 {
      var init := store[..|store| - 1];
      var last := store[|store| - 1];
      WithoutKeepsOthers(init, url, other);
      if !HasUrl(last, url) {
        assert (Without(init, url) + [last])[..|Without(init, url) + [last]| - 1] == Without(init, url);
      }
    }
  }

  /** Appending a record adds it to its own URL's records only. */
  lemma OnlyAppend(store: seq<Record>, r: Record, url: string)
    ensures Only(store + [r], url) == Only(store, url) + (if HasUrl(r, url) then [r] else [])
  {
  }

  /** Index of the record `db.get(Query().url == url)` returns: the first match. */
  function FirstIndex(store: seq<Record>, url: string): (i: Option<nat>)
    ensures i.Some? ==> i.value < |store| && HasUrl(store[i.value], url)
    ensures i.Some? ==> forall j :: 0 <= j < i.value ==> !HasUrl(store[j], url)
    ensures i.None? <==> forall j :: 0 <= j < |store| ==> !HasUrl(store[j], url)
  {
    if |store| == 0 then None
    else if HasUrl(store[0], url) then Some(0)
    else match FirstIndex(store[1..], url)
      case None => None
      case Some(k) => Some(k + 1)
  }

  /** What happens to a URL before the browser is asked for it. */
  datatype Action =
    | Skip     // stored, and the first stored record has no error
    | Fetch    // never stored
    | Refetch  // stored, and the first stored record carries an error

  function Decide(store: seq<Record>, url: string): (a: Action)
    ensures a == Fetch <==> forall j :: 0 <= j < |store| ==> !HasUrl(store[j], url)
    ensures a == Skip <==>
      exists i :: 0 <= i < |store| && HasUrl(store[i], url) && !Truthy(store[i].error)
                  && forall j :: 0 <= j < i ==> !HasUrl(store[j], url)
  {
    match FirstIndex(store, url)
    case None => Fetch
    case Some(i) => if Truthy(store[i].error) then Refetch else Skip
  }

  // ---------------------------------------------------------------------------
  // One URL

  /** What the browser does with a URL: the post never appears within the
      wait; or it loads with its post element and, for a reply, the element
      of the post it replies to; or the browser raises an exception other
      than a timeout or a missing element (a failed navigation, an element
      gone stale while it is read), which nothing in the loop catches. */
  datatype LoadOutcome =
    | TimedOut
    | Loaded(post: PostElement, parent: Option<PostElement>)
    | Raised

  datatype Visit = Visit(url: string, load: LoadOutcome)

  const LoadFailed := "Failed to load post"

  /** `{"url": url, "error": None}` */
  function Fresh(url: string): Record {
    Empty.(url := Str(url), error := Null)
  }

  /** `{"url": url, "error": "Failed to load post"}`: nothing else is read. */
  function TimeoutRecord(url: string): (r: Record)
    ensures HasUrl(r, url) && Truthy(r.error)
    ensures r.error == Str(LoadFailed)
    ensures r == Empty.(url := r.url, error := r.error)
  {
    Fresh(url).(error := Str(LoadFailed))
  }

  /** The record built for a URL whose post loaded. */
  function Scraped(url: string, post: PostElement, parent: Option<PostElement>, imagesDir: string): (r: Record)
    ensures HasUrl(r, url)
    ensures r.parentPost.Some? <==> parent.Some?
    ensures Complete(post) && post.shot.Saved? <==> r.error == Null
    ensures !Complete(post) ==> r.error == Str(ExtractionFailed + FirstMissing(post))
    ensures Complete(post) ==> r.screenshotFile == Str(ScreenshotPath(imagesDir, PostId(url)))
    ensures parent.Some? && Complete(parent.value) ==>
      r.parentPost.value.screenshotFile == Str(ScreenshotPath(imagesDir, PostId(url) + ParentSuffix))
    ensures parent.Some? ==>
      r.parentPost == Some(ExtractPostDetails(parent.value, imagesDir, PostId(url) + ParentSuffix))
    ensures Complete(post) && post.shot.ShotFailed? ==> r.error == Str(ScreenshotFailed + post.shot.message)
    ensures !Complete(post) ==>
      && r.content == Absent && r.screenshotFile == Absent
      && r.likes == Absent && r.reposts == Absent && r.comments == Absent && r.views == Absent
    ensures post.handle.Found? ==> r.handle == Str(post.handle.value)
    ensures post.handle.Missing? ==> r.handle == Absent
    ensures !(post.handle.Found? && post.datetime.Found?) ==> r.datetime == Absent
    ensures post.handle.Found? && post.datetime.Found? ==> r.datetime == AttributeField(post.datetime.value)
    ensures Complete(post) ==>
      && r.content == Str(post.content.value)
      && r.likes == Str(Tally(post.stats).likes) && r.reposts == Str(Tally(post.stats).reposts)
      && r.comments == Str(Tally(post.stats).comments) && r.views == Str(Tally(post.stats).views)
  {
    var id := PostId(url);
    var r := Update(Fresh(url), ExtractPostDetails(post, imagesDir, id));
    match parent
    case None => r
    case Some(p) => r.(parentPost := Some(ExtractPostDetails(p, imagesDir, id + ParentSuffix)))
  }

  /** One iteration of `process_urls`. */
  function ProcessUrl(store: seq<Record>, v: Visit, imagesDir: string): (store': seq<Record>)
    ensures Decide(store, v.url) == Skip ==> store' == store
    ensures v.load.Raised? ==> store' == store
    ensures Decide(store, v.url) != Skip && v.load.TimedOut? ==>
      store' == store + [TimeoutRecord(v.url)]
    ensures Decide(store, v.url) == Fetch && v.load.Loaded? ==>
      store' == store + [Scraped(v.url, v.load.post, v.load.parent, imagesDir)]
    ensures Decide(store, v.url) == Refetch && v.load.Loaded? ==>
      store' == Without(store, v.url) + [Scraped(v.url, v.load.post, v.load.parent, imagesDir)]
    ensures Decide(store, v.url) != Skip && v.load.Loaded? ==>
      && |store'| > 0
      && store'[|store'| - 1] == Scraped(v.url, v.load.post, v.load.parent, imagesDir)
      && Only(store', v.url) == [store'[|store'| - 1]]
    ensures forall u :: u != v.url ==> Only(store', u) == Only(store, u)
  {
    var action := Decide(store, v.url);
    if action == Skip then store
    else
      match v.load
      case TimedOut =>
        var r := TimeoutRecord(v.url);
        forall u | u != v.url ensures Only(store + [r], u) == Only(store, u) {
          OnlyAppend(store, r, u);
        }
        store + [r]
      case Loaded(post, parent) =>
        var r := Scraped(v.url, post, parent, imagesDir);
        var kept := if action == Refetch then Without(store, v.url) else store;
        assert Only(kept, v.url) == [];
        OnlyAppend(kept, r, v.url);
        forall u | u != v.url ensures Only(kept + [r], u) == Only(store, u) {
          OnlyAppend(kept, r, u);
          if action == Refetch { WithoutKeepsOthers(store, v.url, u); }
        }
        kept + [r]
      case Raised => store
  }

  /** Where `process_urls` stands after some visits: the store, and whether an
      exception has left the loop, ending the run. */
  datatype Progress = Progress(store: seq<Record>, stopped: bool)

  /** `process_urls`: the visits in list order, until a visit that is not
      skipped raises. */
  function ProcessUrls(store: seq<Record>, visits: seq<Visit>, imagesDir: string): (p: Progress)
    ensures p.stopped ==> exists i :: 0 <= i < |visits| && visits[i].load.Raised?
    ensures |visits| == 0 ==> p == Progress(store, false)
  {
    if |visits| == 0 then Progress(store, false)
    else
      var n := |visits| - 1;
      var before := ProcessUrls(store, visits[..n], imagesDir);
      var v := visits[n];
      if before.stopped then
        assert forall i :: 0 <= i < n ==> visits[..n][i] == visits[i];
        before
      else
        Progress(ProcessUrl(before.store, v, imagesDir), Decide(before.store, v.url) != Skip && v.load.Raised?)
  }

  /** Once a visit has raised, the visits after it change nothing. */
  lemma {:induction false} StoppedStaysStopped(store: seq<Record>, done: seq<Visit>, rest: seq<Visit>, imagesDir: string)
    requires ProcessUrls(store, done, imagesDir).stopped
    ensures ProcessUrls(store, done + rest, imagesDir) == ProcessUrls(store, done, imagesDir)
    decreases |rest|
  {
    if |rest| > 0 {
      var rest' := rest[..|rest| - 1];
      assert (done + rest)[..|done + rest| - 1] == done + rest';
      StoppedStaysStopped(store, done, rest', imagesDir);
    } else {
      assert done + rest == done;
    }
  }

  /** A visit that is not skipped and raises ends the run with the store as it
      was: neither that URL nor any later one is written. */
  lemma RaisedEndsRun(store: seq<Record>, done: seq<Visit>, v: Visit, rest: seq<Visit>, imagesDir: string)
    requires !ProcessUrls(store, done, imagesDir).stopped
    requires Decide(ProcessUrls(store, done, imagesDir).store, v.url) != Skip && v.load.Raised?
    ensures ProcessUrls(store, done + [v] + rest, imagesDir)
      == Progress(ProcessUrls(store, done, imagesDir).store, true)
  {
    assert (done + [v])[..|done|] == done;
    StoppedStaysStopped(store, done + [v], rest, imagesDir);
  }

  /** A URL that has records keeps at least one through any visit. */
  lemma VisitKeepsStored(store: seq<Record>, v: Visit, imagesDir: string, url: string)
    requires Only(store, url) != []
    ensures Only(ProcessUrl(store, v, imagesDir), url) != []
  {
    if url == v.url && Decide(store, url) != Skip && v.load.TimedOut? {
      OnlyAppend(store, TimeoutRecord(url), url);
    }
  }

  /** A visit that does not raise leaves its URL with at least one record:
      skipped because one is stored, or stored now. */
  lemma VisitStores(store: seq<Record>, v: Visit, imagesDir: string)
    requires !(Decide(store, v.url) != Skip && v.load.Raised?)
    ensures Only(ProcessUrl(store, v, imagesDir), v.url) != []
  {
    if Decide(store, v.url) == Skip {
      var i :| 0 <= i < |store| && HasUrl(store[i], v.url) && !Truthy(store[i].error)
                && forall j :: 0 <= j < i ==> !HasUrl(store[j], v.url);
    } else if v.load.TimedOut? {
      OnlyAppend(store, TimeoutRecord(v.url), v.url);
    }
  }

  /** A run that did not stop got through its last visit without stopping,
      and that visit is the last step applied to the store. */
  lemma ProcessUrlsLast(store: seq<Record>, visits: seq<Visit>, imagesDir: string)
    requires |visits| > 0 && !ProcessUrls(store, visits, imagesDir).stopped
    ensures var before := ProcessUrls(store, visits[..|visits| - 1], imagesDir);
      && !before.stopped
      && !(Decide(before.store, visits[|visits| - 1].url) != Skip && visits[|visits| - 1].load.Raised?)
      && ProcessUrls(store, visits, imagesDir).store == ProcessUrl(before.store, visits[|visits| - 1], imagesDir)
  {
  }

  /** A run that did not stop leaves every listed URL with at least one
      record in the store. */
  lemma {:induction false} EveryVisitStored(store: seq<Record>, visits: seq<Visit>, imagesDir: string, i: nat)
    requires !ProcessUrls(store, visits, imagesDir).stopped
    requires i < |visits|
    ensures Only(ProcessUrls(store, visits, imagesDir).store, visits[i].url) != []
    decreases |visits|
  {
    var n := |visits| - 1;
    var init := visits[..n];
    var before := ProcessUrls(store, init, imagesDir);
    var v := visits[n];
    ProcessUrlsLast(store, visits, imagesDir);
    var after := ProcessUrl(before.store, v, imagesDir);
    assert ProcessUrls(store, visits, imagesDir).store == after;
    if i == n {
      VisitStores(before.store, v, imagesDir);
      assert Only(after, v.url) != [];
    } else {
      var url := visits[i].url;
      assert init[i] == visits[i];
      EveryVisitStored(store, init, imagesDir, i);
      VisitKeepsStored(before.store, v, imagesDir, url);
      assert Only(after, url) != [];
    }
  }

  /** `db.get` sees the first of the URL's records: the match `FirstIndex`
      finds is the head of `Only`. */
  lemma {:induction false} FirstIndexIsOnlyHead(store: seq<Record>, url: string)
    requires FirstIndex(store, url).Some?
    ensures Only(store, url) != [] && Only(store, url)[0] == store[FirstIndex(store, url).value]
    decreases |store|
  {
    var n := |store| - 1;
    var init := store[..n];
    var i := FirstIndex(store, url).value;
    assert forall j :: 0 <= j < |init| ==> init[j] == store[j];
    if i < n {
      assert HasUrl(init[i], url);
      var i' := FirstIndex(init, url);
      assert i'.Some? && i'.value == i;
      FirstIndexIsOnlyHead(init, url);
      var before := Only(init, url);
      assert Only(store, url) == if HasUrl(store[n], url) then before + [store[n]] else before;
    } else {
      assert Only(init, url) == [];
    }
  }

  /** The decision about a URL depends only on that URL's records. */
  lemma DecideByOnly(store: seq<Record>, url: string)
    ensures Decide(store, url) ==
      if Only(store, url) == [] then Fetch
      else if Truthy(Only(store, url)[0].error) then Refetch
      else Skip
  {
    if FirstIndex(store, url).Some? {
      FirstIndexIsOnlyHead(store, url);
    }
  }

  /** A visit leaves a skipped URL skipped, with its records as they were. */
  lemma SkipStep(store: seq<Record>, v: Visit, imagesDir: string, url: string)
    requires Decide(store, url) == Skip
    ensures Only(ProcessUrl(store, v, imagesDir), url) == Only(store, url)
    ensures Decide(ProcessUrl(store, v, imagesDir), url) == Skip
  {
    if v.url != url {
      DecideByOnly(store, url);
      DecideByOnly(ProcessUrl(store, v, imagesDir), url);
    }
  }

  /** The last visit of a run leaves a skipped URL skipped, with its records
      as they were, whether or not the run had stopped before it. */
  lemma SkipRunStep(store: seq<Record>, visits: seq<Visit>, imagesDir: string, url: string)
    requires |visits| > 0
    requires Decide(ProcessUrls(store, visits[..|visits| - 1], imagesDir).store, url) == Skip
    ensures var before := ProcessUrls(store, visits[..|visits| - 1], imagesDir).store;
      var after := ProcessUrls(store, visits, imagesDir).store;
      Only(after, url) == Only(before, url) && Decide(after, url) == Skip
  {
    var before := ProcessUrls(store, visits[..|visits| - 1], imagesDir);
    if !before.stopped {
      SkipStep(before.store, visits[|visits| - 1], imagesDir, url);
    }
  }

  /** A URL that is skipped stays skipped through any run, and its records
      stay as they were: other URLs' visits do not touch them, and its own
      visits are skipped. */
  lemma {:induction false} SkipIsStable(store: seq<Record>, visits: seq<Visit>, imagesDir: string, url: string)
    requires Decide(store, url) == Skip
    ensures Only(ProcessUrls(store, visits, imagesDir).store, url) == Only(store, url)
    ensures Decide(ProcessUrls(store, visits, imagesDir).store, url) == Skip
    decreases |visits|
  {
    if |visits| > 0 {
      SkipIsStable(store, visits[..|visits| - 1], imagesDir, url);
      SkipRunStep(store, visits, imagesDir, url);
    }
  }

  /** Once a visit stores an error-free record, the URL's next visit is
      skipped and changes nothing, after any visits of other URLs in
      between. */
  lemma CleanRecordStaysFinal(store: seq<Record>, url: string, post: PostElement,
                              parent: Option<PostElement>, imagesDir: string,
                              between: seq<Visit>, later: LoadOutcome)
    requires Decide(store, url) != Skip
    requires Complete(post) && post.shot.Saved?
    ensures var store' := ProcessUrl(store, Visit(url, Loaded(post, parent)), imagesDir);
      var mid := ProcessUrls(store', between, imagesDir).store;
      && Only(mid, url) == Only(store', url)
      && ProcessUrl(mid, Visit(url, later), imagesDir) == mid
  {
    var store' := ProcessUrl(store, Visit(url, Loaded(post, parent)), imagesDir);
    CleanRecordIsFinal(store, url, post, parent, imagesDir, later);
    SkipIsStable(store', between, imagesDir, url);
  }

  /** The URLs a run visits. */
  predicate Visits(visits: seq<Visit>, url: string) {
    exists i :: 0 <= i < |visits| && visits[i].url == url
  }

  /** A run leaves the records of every URL it does not visit as they were. */
  lemma {:induction false} ProcessUrlsFrame(store: seq<Record>, visits: seq<Visit>, imagesDir: string, url: string)
    requires !Visits(visits, url)
    ensures Only(ProcessUrls(store, visits, imagesDir).store, url) == Only(store, url)
    decreases |visits|
  {
    if |visits| > 0 {
      var init := visits[..|visits| - 1];
      assert !Visits(init, url);
      ProcessUrlsFrame(store, init, imagesDir, url);
      assert visits[|visits| - 1].url != url;
    }
  }

  /** Each visit adds at most one record. */
  lemma {:induction false} ProcessUrlsGrowth(store: seq<Record>, visits: seq<Visit>, imagesDir: string)
    ensures |ProcessUrls(store, visits, imagesDir).store| <= |store| + |visits|
    decreases |visits|
  {
    if |visits| > 0 {
      var init := visits[..|visits| - 1];
      ProcessUrlsGrowth(store, init, imagesDir);
      var before := ProcessUrls(store, init, imagesDir).store;
      var v := visits[|visits| - 1];
      if Decide(before, v.url) == Refetch && v.load.Loaded? {
        assert |Without(before, v.url)| <= |before|;
      }
    }
  }

  /** Once a visit stores an error-free record, the next visit of that URL is
      skipped and changes nothing, whatever its load outcome. */
  lemma CleanRecordIsFinal(store: seq<Record>, url: string, post: PostElement,
                           parent: Option<PostElement>, imagesDir: string, later: LoadOutcome)
    requires Decide(store, url) != Skip
    requires Complete(post) && post.shot.Saved?
    ensures var store' := ProcessUrl(store, Visit(url, Loaded(post, parent)), imagesDir);
      Decide(store', url) == Skip && ProcessUrl(store', Visit(url, later), imagesDir) == store'
  {
    var store' := ProcessUrl(store, Visit(url, Loaded(post, parent)), imagesDir);
    var r := Scraped(url, post, parent, imagesDir);
    var kept := if Decide(store, url) == Refetch then Without(store, url) else store;
    assert store' == kept + [r];
    assert r.error == Null;
    NoMatchThenLast(kept, r, url);
  }

  /** A record appended after records of other URLs is the one `db.get` finds. */
  lemma NoMatchThenLast(kept: seq<Record>, r: Record, url: string)
    requires forall j :: 0 <= j < |kept| ==> !HasUrl(kept[j], url)
    requires HasUrl(r, url) && !Truthy(r.error)
    ensures Decide(kept + [r], url) == Skip
  {
    var s := kept + [r];
    assert forall j :: 0 <= j < |kept| ==> s[j] == kept[j];
    assert s[|kept|] == r;
    assert FirstIndex(s, url) == Some(|kept|);
  }

  /** Every record stored for a URL is among `Only`. */
  lemma {:induction false} OnlyHoldsAll(store: seq<Record>, url: string, i: nat)
    requires i < |store| && HasUrl(store[i], url)
    ensures store[i] in Only(store, url)
    decreases |store|
  {
    if i < |store| - 1 {
      var init := store[..|store| - 1];
      OnlyHoldsAll(init, url, i);
    }
  }

  /** A load timeout on a URL whose first record carries an error keeps that
      record and appends a second one: url alone does not identify a record. */
  lemma TimeoutAfterErrorDuplicates(store: seq<Record>, url: string, imagesDir: string)
    requires Decide(store, url) == Refetch
    ensures |Only(ProcessUrl(store, Visit(url, TimedOut), imagesDir), url)| >= 2
  {
  }

  /** A timed-out URL is fetched again by the next run. */
  lemma TimeoutIsRetried(store: seq<Record>, url: string, imagesDir: string)
    requires Decide(store, url) == Fetch
    ensures Decide(ProcessUrl(store, Visit(url, TimedOut), imagesDir), url) == Refetch
  {
    var store' := store + [TimeoutRecord(url)];
    assert forall j :: 0 <= j < |store| ==> store'[j] == store[j];
    assert HasUrl(store'[|store|], url);
  }

  /** Two listed URLs, the first already stored without an error: only the
      second is fetched, and the store ends with the old record and the new one. */
  lemma SkipThenStore(kept: Record, u1: string, u2: string, first: LoadOutcome,
                      post: PostElement, imagesDir: string)
    requires u1 != u2
    requires HasUrl(kept, u1) && kept.error == Null
    ensures ProcessUrls([kept], [Visit(u1, first), Visit(u2, Loaded(post, None))], imagesDir)
      == Progress([kept, Scraped(u2, post, None, imagesDir)], false)
  {
    var visits := [Visit(u1, first), Visit(u2, Loaded(post, None))];
    assert visits[..1] == [Visit(u1, first)];
    assert visits[..1][..0] == [];
    assert FirstIndex([kept], u1) == Some(0);
    assert Decide([kept], u1) == Skip;
    var s1 := ProcessUrls([kept], visits[..1], imagesDir);
    assert ProcessUrls([kept], visits[..1][..0], imagesDir) == Progress([kept], false);
    assert s1 == Progress([kept], false);
    assert !HasUrl(kept, u2);
    assert Decide([kept], u2) == Fetch;
  }
}

=== FILE: sorting.dfy ===
/** Python's ordering of `str` values (code point by code point, a proper
    prefix first) and `sorted()` over a list of strings. */
module Sorting {

  /** `a <= b` as Python compares strings. */
  predicate Below(a: string, b: string)
    ensures |a| <= |b| && a == b[..|a|] ==> Below(a, b)
    ensures |a| > 0 && |b| > 0 && a[0] != b[0] ==> (Below(a, b) <==> a[0] < b[0])
  {
    |a| == 0 || (|b| > 0 && (a[0] < b[0] || (a[0] == b[0] && Below(a[1..], b[1..]))))
  }

  /** The ordering read off the first position where the strings differ. */
  ghost predicate FirstDifferenceBelow(a: string, b: string) {
    (|a| <= |b| && a == b[..|a|]) ||
    exists k :: 0 <= k < |a| && k < |b| && a[..k] == b[..k] && a[k] < b[k]
  }

  lemma PrefixTail(a: string, b: string)
    requires 0 < |a| <= |b| && a == b[..|a|]
    ensures a[0] == b[0] && |a[1..]| <= |b[1..]| && a[1..] == b[1..][..|a[1..]|]
  {
  }

  lemma PrefixCons(a: string, b: string)
    requires 0 < |a| && 0 < |b| && a[0] == b[0]
    requires |a[1..]| <= |b[1..]| && a[1..] == b[1..][..|a[1..]|]
    ensures |a| <= |b| && a == b[..|a|]
  {
  }

  lemma DifferenceTail(a: string, b: string, k: nat)
    requires 0 < k < |a| && k < |b| && a[..k] == b[..k] && a[k] < b[k]
    ensures a[0] == b[0] && a[1..][..k - 1] == b[1..][..k - 1] && a[1..][k - 1] < b[1..][k - 1]
  {
  }

  lemma DifferenceCons(a: string, b: string, k: nat)
    requires 0 < |a| && 0 < |b| && a[0] == b[0]
    requires k < |a[1..]| && k < |b[1..]| && a[1..][..k] == b[1..][..k] && a[1..][k] < b[1..][k]
    ensures a[..k + 1] == b[..k + 1] && a[k + 1] < b[k + 1]
  {
  }

  /** Reading the first difference off the heads, then the tails. */
  lemma FirstDifferenceHead(a: string, b: string)
    requires |a| > 0 && |b| > 0 && FirstDifferenceBelow(a, b)
    ensures a[0] < b[0] || (a[0] == b[0] && FirstDifferenceBelow(a[1..], b[1..]))
  {
    if |a| <= |b| && a == b[..|a|] {
      PrefixTail(a, b);
    } else {
      var k :| 0 <= k < |a| && k < |b| && a[..k] == b[..k] && a[k] < b[k];
      if k > 0 {
        DifferenceTail(a, b, k);
        assert FirstDifferenceBelow(a[1..], b[1..]) by {
          assert 0 <= k - 1 < |a[1..]| && k - 1 < |b[1..]|;
        }
      }
    }
  }

  lemma FirstDifferenceCons(a: string, b: string)
    requires |a| > 0 && |b| > 0
    requires a[0] < b[0] || (a[0] == b[0] && FirstDifferenceBelow(a[1..], b[1..]))
    ensures FirstDifferenceBelow(a, b)
  {
    if a[0] < b[0] {
      assert a[..0] == b[..0];
    } else if |a[1..]| <= |b[1..]| && a[1..] == b[1..][..|a[1..]|] {
      PrefixCons(a, b);
    } else {
      var k :| 0 <= k < |a[1..]| && k < |b[1..]| && a[1..][..k] == b[1..][..k] && a[1..][k] < b[1..][k];
      DifferenceCons(a, b, k);
    }
  }

  /** `Below` is exactly "a prefix, or smaller at the first difference". */
  lemma {:induction false} BelowMeansFirstDifference(a: string, b: string)
    ensures Below(a, b) <==> FirstDifferenceBelow(a, b)
    decreases |a|
  {
    if |a| == 0 {
      assert a == b[..0];
    } else if |b| > 0 {
      BelowMeansFirstDifference(a[1..], b[1..]);
      if FirstDifferenceBelow(a, b) { FirstDifferenceHead(a, b); }
      if Below(a, b) { FirstDifferenceCons(a, b); }
    }
  }

  lemma {:induction false} BelowReflexive(a: string)
    ensures Below(a, a)
    decreases |a|
  {
    if |a| > 0 {
      BelowReflexive(a[1..]);
    }
  }

  lemma {:induction false} BelowTotal(a: string, b: string)
    ensures Below(a, b) || Below(b, a)
    decreases |a|
  {
    if |a| > 0 && |b| > 0 && a[0] == b[0] {
      BelowTotal(a[1..], b[1..]);
    }
  }

  lemma {:induction false} BelowAntisymmetric(a: string, b: string)
    requires Below(a, b) && Below(b, a)
    ensures a == b
    decreases |a|
  {
    if |a| > 0 {
      BelowAntisymmetric(a[1..], b[1..]);
      assert a == [a[0]] + a[1..];
      assert b == [b[0]] + b[1..];
    }
  }

  lemma {:induction false} BelowTransitive(a: string, b: string, c: string)
    requires Below(a, b) && Below(b, c)
    ensures Below(a, c)
    decreases |a|
  {
    if |a| > 0 && a[0] == b[0] && b[0] == c[0] {
      BelowTransitive(a[1..], b[1..], c[1..]);
    }
  }

  predicate Sorted(s: seq<string>) {
    forall i, j :: 0 <= i < j < |s| ==> Below(s[i], s[j])
  }

  /** Places `x` into an already sorted list. */
  function Insert(x: string, s: seq<string>): (r: seq<string>)
    requires Sorted(s)
    ensures Sorted(r)
    ensures multiset(r) == multiset(s) + multiset{x}
  {
    if |s| == 0 then [x]
    else if Below(x, s[0]) then
      forall j | 0 < j < |s|
        ensures Below(x, s[j])
      {
        BelowTransitive(x, s[0], s[j]);
      }
      [x] + s
    else
      BelowTotal(x, s[0]);
      var rest := Insert(x, s[1..]);
      assert s == [s[0]] + s[1..];
      forall j | 0 <= j < |rest|
        ensures Below(s[0], rest[j])
      {
        assert rest[j] in multiset(rest);
        assert rest[j] == x || rest[j] in multiset(s[1..]);
      }
      [s[0]] + rest
  }

  /** Python's `sorted()` on strings: a sorted permutation of the input. */
  function Sort(s: seq<string>): (r: seq<string>)
    ensures Sorted(r)
    ensures multiset(r) == multiset(s)
  {
    if |s| == 0 then []
    else
      assert s == s[..|s| - 1] + [s[|s| - 1]];
      Insert(s[|s| - 1], Sort(s[..|s| - 1]))
  }

  /** The first element of a sorted list is its least element. */
  lemma SortedHeadLeast(a: seq<string>, x: string)
    requires Sorted(a) && x in a
    ensures Below(a[0], x)
  {
    var j :| 0 <= j < |a| && a[j] == x;
    if j == 0 {
      BelowReflexive(x);
    }
  }

  /** Two sorted lists with the same elements start with the same one. */
  lemma SortedHeadsAgree(a: seq<string>, b: seq<string>)
    requires Sorted(a) && Sorted(b) && |a| > 0 && |b| > 0
    requires multiset(a) == multiset(b)
    ensures a[0] == b[0]
  {
    assert a[0] in multiset(b);
    assert b[0] in multiset(a);
    SortedHeadLeast(a, b[0]);
    SortedHeadLeast(b, a[0]);
    BelowAntisymmetric(a[0], b[0]);
  }

  /** Two sorted lists holding the same strings are the same list: the sorted
      output does not depend on the order its input was produced in. */
  lemma {:induction false} SortedUnique(a: seq<string>, b: seq<string>)
    requires Sorted(a) && Sorted(b)
    requires multiset(a) == multiset(b)
    ensures a == b
    decreases |a|
  {
    assert |b| == |multiset(b)| == |multiset(a)| == |a|;
    if |a| > 0 {
      SortedHeadsAgree(a, b);
      assert a == [a[0]] + a[1..];
      assert b == [b[0]] + b[1..];
      assert multiset(a[1..]) == multiset(a) - multiset{a[0]};
      assert multiset(b[1..]) == multiset(b) - multiset{b[0]};
      SortedUnique(a[1..], b[1..]);
    }
  }

  /** Sorting two arrangements of the same strings gives the same output. */
  lemma SortIgnoresInputOrder(a: seq<string>, b: seq<string>)
    requires multiset(a) == multiset(b)
    ensures Sort(a) == Sort(b)
  {
    SortedUnique(Sort(a), Sort(b));
  }
}

=== FILE: strings.dfy ===
/** Text helpers shared by the three scripts, restricted to ASCII: Python's
    `str.strip()`, `str.lower()`, substring search and digit tests. */
module Strings {

  /** ASCII characters for which Python's `str.isspace()` holds:
      tab through carriage return, the four separators 0x1C-0x1F, and space. */
  predicate IsSpace(c: char) {
    (9 <= c as int <= 13) || (28 <= c as int <= 32)
  }

  predicate IsDigit(c: char) {
    '0' <= c <= '9'
  }

  predicate AllDigits(s: string) {
    forall k :: 0 <= k < |s| ==> IsDigit(s[k])
  }

  predicate StartsWith(s: string, prefix: string) {
    |prefix| <= |s| && s[..|prefix|] == prefix
  }

  predicate EndsWith(s: string, suffix: string) {
    |suffix| <= |s| && s[|s| - |suffix|..] == suffix
  }

  /** Number of whitespace characters at the front of `s`. */
  function LeadingSpace(s: string): (n: nat)
    ensures n <= |s|
    ensures forall k :: 0 <= k < n ==> IsSpace(s[k])
    ensures n < |s| ==> !IsSpace(s[n])
  {
    if |s| > 0 && IsSpace(s[0]) then 1 + LeadingSpace(s[1..]) else 0
  }

  /** Number of whitespace characters at the end of `s`. */
  function TrailingSpace(s: string): (n: nat)
    ensures n <= |s|
    ensures forall k :: |s| - n <= k < |s| ==> IsSpace(s[k])
    ensures n < |s| ==> !IsSpace(s[|s| - n - 1])
  {
    if |s| > 0 && IsSpace(s[|s| - 1]) then 1 + TrailingSpace(s[..|s| - 1]) else 0
  }

  /** Python's `s.strip()` over ASCII whitespace: the unique slice of `s`
      that drops only whitespace on either side and neither starts nor ends
      with whitespace. */
  function Strip(s: string): (r: string)
    ensures LeadingSpace(s) + |r| <= |s|
    ensures r == s[LeadingSpace(s)..LeadingSpace(s) + |r|]
    ensures forall k :: 0 <= k < LeadingSpace(s) ==> IsSpace(s[k])
    ensures forall k :: LeadingSpace(s) + |r| <= k < |s| ==> IsSpace(s[k])
    ensures r == [] || (!IsSpace(r[0]) && !IsSpace(r[|r| - 1]))
    ensures r == [] <==> forall k :: 0 <= k < |s| ==> IsSpace(s[k])
  {
    var i := LeadingSpace(s);
    var t := s[i..];
    t[..|t| - TrailingSpace(t)]
  }

  function LowerChar(c: char): char {
    if 'A' <= c <= 'Z' then (c as int + 32) as char else c
  }

  /** Python's `s.lower()` over ASCII letters; other characters are kept. */
  function Lower(s: string): (r: string)
    ensures |r| == |s|
    ensures forall k :: 0 <= k < |s| ==> r[k] == LowerChar(s[k])
  {
    if |s| == 0 then [] else [LowerChar(s[0])] + Lower(s[1..])
  }

  /** `needle` occurs somewhere in `hay` (the meaning of Python's `in` on strings). */
  ghost predicate Occurs(needle: string, hay: string) {
    exists i :: 0 <= i <= |hay| && StartsWith(hay[i..], needle)
  }

  /** Substring test by scanning; agrees with `Occurs` on every input. */
  function Contains(hay: string, needle: string): (b: bool)
    ensures b <==> Occurs(needle, hay)
    decreases |hay|
  {
    if StartsWith(hay, needle) then
      assert StartsWith(hay[0..], needle);
      true
    else if |hay| == 0 then
      false
    else
      ContainsStep(hay, needle);
      Contains(hay[1..], needle)
  }

  /** Moving past a first character that does not start a match loses no occurrence. */
  lemma ContainsStep(hay: string, needle: string)
    requires |hay| > 0 && !StartsWith(hay, needle)
    ensures Occurs(needle, hay) <==> Occurs(needle, hay[1..])
  {
    if Occurs(needle, hay) {
      var i :| 0 <= i <= |hay| && StartsWith(hay[i..], needle);
      assert i != 0;
      assert hay[1..][i - 1..] == hay[i..];
      assert StartsWith(hay[1..][i - 1..], needle);
    }
    if Occurs(needle, hay[1..]) {
      var i :| 0 <= i <= |hay[1..]| && StartsWith(hay[1..][i..], needle);
      assert hay[1..][i..] == hay[i + 1..];
      assert StartsWith(hay[i + 1..], needle);
    }
  }

  /** Concatenation of a sequence of strings. */
  function Concat(parts: seq<string>): string {
    if |parts| == 0 then [] else parts[0] + Concat(parts[1..])
  }

  /** Concatenating a list that starts with `first`. */
  lemma ConcatCons(first: string, rest: seq<string>)
    ensures Concat([first] + rest) == first + Concat(rest)
  {
    assert ([first] + rest)[1..] == rest;
  }
}

=== FILE: wordpress_import.dfy ===
/** The WordPress import: per stored record, an optional screenshot upload
    and exactly one create-post request. The HTTP calls and the file system
    are parameters: whether a path exists, and what the media endpoint
    answers for an upload of that path. */
module WordpressImport {
  import opened Wrappers
  import opened Strings
  import opened PostRecord
  import Dates

  const UnknownHandle := "Unknown"
  const Publish := "publish"
  const Created := 201

  /** `post_data.get(key, default)` as an f-string renders it: the default
      when the key is missing, "None" for a JSON null. */
  function Text(f: Field, default: string): (s: string)
    ensures f.Absent? ==> s == default
    ensures f.Null? ==> s == "None"
    ensures f.Str? ==> s == f.s
  {
    match f
    case Absent => default
    case Null => "None"
    case Str(s) => s
  }

  // ---------------------------------------------------------------------------
  // Templates

  const TitlePrefix := "Post by "

  function Title(handle: string, date: string): (t: string)
    ensures |t| == |TitlePrefix| + |handle| + 1 + |date|
    ensures t[..|TitlePrefix|] == TitlePrefix
    ensures t[|TitlePrefix|..|TitlePrefix| + |handle|] == handle
    ensures t[|TitlePrefix| + |handle|] == ' '
    ensures t[|TitlePrefix| + |handle| + 1..] == date
  {
    TitlePrefix + handle + " " + date
  }

  /** One `<li>name: value</li>` line; name and value can be read back. */
  function Item(name: string, value: string): (it: string)
    ensures |it| == |name| + |value| + 11
    ensures StartsWith(it, "<li>" + name + ": ") && EndsWith(it, value + "</li>")
  {
    var it := "<li>" + name + ": " + value + "</li>";
    assert it[..|name| + 6] == "<li>" + name + ": ";
    assert it[|it| - |value| - 5..] == value + "</li>";
    it
  }

  const Labels := ["URL", "Likes", "Reposts", "Comments", "Views"]

  /** The five list items, in fixed order, each ending in its value. */
  function MetadataItems(url: string, likes: string, reposts: string, comments: string, views: string): (items: seq<string>)
    ensures |items| == 5
    ensures forall i :: 0 <= i < 5 ==> StartsWith(items[i], "<li>" + Labels[i] + ": ")
    ensures |items[0]| == |Labels[0]| + |"<a href='" + url + "'>" + url + "</a>"| + 11
    ensures |items[1]| == |Labels[1]| + |likes| + 11 && |items[2]| == |Labels[2]| + |reposts| + 11
    ensures |items[3]| == |Labels[3]| + |comments| + 11 && |items[4]| == |Labels[4]| + |views| + 11
    ensures EndsWith(items[0], "<a href='" + url + "'>" + url + "</a></li>")
    ensures EndsWith(items[1], likes + "</li>") && EndsWith(items[2], reposts + "</li>")
    ensures EndsWith(items[3], comments + "</li>") && EndsWith(items[4], views + "</li>")
  {
    var link := "<a href='" + url + "'>" + url + "</a>";
    assert link + "</li>" == "<a href='" + url + "'>" + url + "</a></li>";
    [Item(Labels[0], link), Item(Labels[1], likes), Item(Labels[2], reposts),
     Item(Labels[3], comments), Item(Labels[4], views)]
  }

  const ListOpen := "\n\n<ul>\n"
  const ListClose := "\n</ul>"

  /** The post body: the content, then the metadata as an unordered list. */
  function Body(content: string, metadata: string): (b: string)
    ensures |b| == |content| + |ListOpen| + |metadata| + |ListClose|
    ensures b[..|content|] == content
    ensures b[|content|..|content| + |ListOpen|] == ListOpen
    ensures b[|content| + |ListOpen|..|b| - |ListClose|] == metadata
    ensures EndsWith(b, ListClose)
  {
    content + ListOpen + metadata + ListClose
  }

  // ---------------------------------------------------------------------------
  // Requests

  /** The JSON body of the create-post request. */
  datatype Payload = Payload(title: string, content: string, status: string, featuredMedia: Option<int>)

  /** `create_post`: `featured_media` is sent only for a truthy image id. */
  function CreatePayload(title: string, content: string, featured: Option<int>, metadata: string): (p: Payload)
    ensures p.title == title && p.status == Publish
    ensures p.featuredMedia.Some? <==> featured.Some? && featured.value != 0
    ensures p.featuredMedia.Some? ==> p.featuredMedia == featured
    ensures p.content == Body(content, metadata)
  {
    Payload(title, Body(content, metadata), Publish,
            if featured.Some? && featured.value != 0 then featured else None)
  }

  /** What the media endpoint does with an upload: a status code and the `id`
      of its JSON answer (`None` when that cannot be read), or an exception. */
  datatype UploadResponse = Responded(status: int, id: Option<int>) | Raised

  /** `upload_image`: an id only from a 201 answer. */
  function UploadImage(resp: UploadResponse): (id: Option<int>)
    ensures id.Some? <==> resp.Responded? && resp.status == Created && resp.id.Some?
    ensures id.Some? ==> id == resp.id
  {
    match resp
    case Responded(status, id) => if status == Created then id else None
    case Raised => None
  }

  // ---------------------------------------------------------------------------
  // One record

  /** What one record leads to: the path uploaded, if any, and the create request. */
  datatype Attempt = Attempt(uploaded: Option<string>, payload: Payload)

  /** One iteration of `process_json_file`; `None` when the record stops the
      run (`strptime` raises TypeError on a null `datetime`). */
  function PublishRecord(rec: Record, fileExists: string -> bool, upload: string -> UploadResponse): (a: Option<Attempt>)
    ensures a.None? <==> rec.datetime == Null
    ensures a.Some? ==> (a.value.uploaded.Some? <==> Truthy(rec.screenshotFile) && fileExists(rec.screenshotFile.s))
    ensures a.Some? && a.value.uploaded.Some? ==> a.value.uploaded.value == rec.screenshotFile.s
    ensures a.Some? && a.value.uploaded.None? ==> a.value.payload.featuredMedia.None?
    ensures a.Some? && a.value.uploaded.Some? ==>
      var id := UploadImage(upload(a.value.uploaded.value));
      a.value.payload.featuredMedia == (if id.Some? && id.value != 0 then id else None)
    ensures a.Some? ==> a.value.payload.status == Publish
    ensures a.Some? ==>
      a.value.payload.title == Title(Text(rec.handle, UnknownHandle), Dates.FormatDate(Text(rec.datetime, "")))
    ensures a.Some? ==>
      var items := MetadataItems(Text(rec.url, ""), Text(rec.likes, "0"), Text(rec.reposts, "0"),
                                 Text(rec.comments, "0"), Text(rec.views, "0"));
      a.value.payload.content == Body(Text(rec.content, ""), Concat(items))
  {
    if rec.datetime == Null then None
    else
      var handle := Text(rec.handle, UnknownHandle);
      var date := Dates.FormatDate(Text(rec.datetime, ""));
      var title := Title(handle, date);
      var items := MetadataItems(Text(rec.url, ""), Text(rec.likes, "0"), Text(rec.reposts, "0"),
                                 Text(rec.comments, "0"), Text(rec.views, "0"));
      var uploaded := if Truthy(rec.screenshotFile) && fileExists(rec.screenshotFile.s)
                      then Some(rec.screenshotFile.s) else None;
      var featured := if uploaded.Some? then UploadImage(upload(uploaded.value)) else None;
      Some(Attempt(uploaded, CreatePayload(title, Text(rec.content, ""), featured, Concat(items))))
  }

  // ---------------------------------------------------------------------------
  // The whole table

  /** The create requests made, and whether the run stopped on an exception. */
  datatype Run = Run(attempts: seq<Attempt>, crashed: bool)

  /** The loop over a table, in table order, for any per-record step: a
      step that raises (`None`) ends the loop. */
  function RunSteps(records: seq<Record>, step: Record -> Option<Attempt>): (run: Run)
    ensures |run.attempts| <= |records|
  {
    if |records| == 0 then Run([], false)
    else
      var prev := RunSteps(records[..|records| - 1], step);
      if prev.crashed then prev
      else match step(records[|records| - 1])
        case None => Run(prev.attempts, true)
        case Some(a) => Run(prev.attempts + [a], false)
  }

  /** One iteration of `process_json_file` as a step. */
  function RecordStep(fileExists: string -> bool, upload: string -> UploadResponse): Record -> Option<Attempt> {
    rec => PublishRecord(rec, fileExists, upload)
  }

  /** The loop over the `_default` table. */
  function PublishAll(records: seq<Record>, fileExists: string -> bool, upload: string -> UploadResponse): (run: Run)
    ensures |run.attempts| <= |records|
  {
    RunSteps(records, RecordStep(fileExists, upload))
  }

  const DefaultTable := "_default"

  /** `process_json_file`: an unreadable file ends the import quietly, and a
      document without a `_default` table has nothing to publish. */
  function ProcessJsonFile(doc: Option<map<string, seq<Record>>>, fileExists: string -> bool,
                           upload: string -> UploadResponse): (run: Run)
    ensures doc.None? ==> run == Run([], false)
    ensures doc.Some? && DefaultTable !in doc.value ==> run == Run([], false)
    ensures doc.Some? && DefaultTable in doc.value ==>
      run == PublishAll(doc.value[DefaultTable], fileExists, upload)
  {
    match doc
    case None => Run([], false)
    case Some(tables) =>
      if DefaultTable in tables then PublishAll(tables[DefaultTable], fileExists, upload)
      else Run([], false)
  }

  /** Appending one more record and its attempt keeps the two lists aligned,
      for any per-record step. */
  lemma AttemptsExtend(records: seq<Record>, prev: seq<Attempt>, a: Attempt,
                       step: Record -> Option<Attempt>)
    requires |records| > 0 && |prev| == |records| - 1
    requires forall i :: 0 <= i < |prev| ==> step(records[i]) == Some(prev[i])
    requires step(records[|records| - 1]) == Some(a)
    ensures forall i :: 0 <= i < |records| ==> step(records[i]) == Some((prev + [a])[i])
  {
  }

  /** When no step raises, the loop makes one attempt per record, in order. */
  lemma {:induction false} StepsAligned(records: seq<Record>, step: Record -> Option<Attempt>)
    requires forall i :: 0 <= i < |records| ==> step(records[i]).Some?
    ensures var run := RunSteps(records, step);
      && !run.crashed && |run.attempts| == |records|
      && forall i :: 0 <= i < |records| ==> step(records[i]) == Some(run.attempts[i])
    decreases |records|
  {
    if |records| > 0 {
      var init := records[..|records| - 1];
      assert forall i :: 0 <= i < |init| ==> init[i] == records[i];
      StepsAligned(init, step);
      var prev := RunSteps(init, step).attempts;
      AttemptsExtend(records, prev, step(records[|records| - 1]).value, step);
    }
  }

  /** The first step that raises ends the loop: only the records before it
      made their attempts. */
  lemma {:induction false} StepsStop(records: seq<Record>, k: nat, step: Record -> Option<Attempt>)
    requires k < |records| && step(records[k]).None?
    requires forall i :: 0 <= i < k ==> step(records[i]).Some?
    ensures var run := RunSteps(records, step);
      run.crashed && run.attempts == RunSteps(records[..k], step).attempts && |run.attempts| == k
    decreases |records|
  {
    var init := records[..|records| - 1];
    if k < |records| - 1 {
      assert forall i :: 0 <= i <= k ==> init[i] == records[i];
      StepsStop(init, k, step);
      assert init[..k] == records[..k];
    } else {
      assert init == records[..k];
      assert forall i :: 0 <= i < |init| ==> init[i] == records[i];
      StepsAligned(init, step);
    }
  }

  /** Without a null `datetime`, every record yields exactly one create
      request, in table order, whatever its upload did. */
  lemma OneAttemptPerRecord(records: seq<Record>, fileExists: string -> bool,
                            upload: string -> UploadResponse)
    requires forall i :: 0 <= i < |records| ==> records[i].datetime != Null
    ensures var run := PublishAll(records, fileExists, upload);
      && !run.crashed && |run.attempts| == |records|
      && forall i :: 0 <= i < |records| ==>
           PublishRecord(records[i], fileExists, upload) == Some(run.attempts[i])
  {
    var step := RecordStep(fileExists, upload);
    forall i | 0 <= i < |records|
      ensures step(records[i]).Some?
    {
    }
    StepsAligned(records, step);
  }

  /** A null `datetime` ends the run there: the records before it each got
      their create request, and no later record is looked at. */
  lemma NullDatetimeStops(records: seq<Record>, k: nat, fileExists: string -> bool,
                          upload: string -> UploadResponse)
    requires k < |records| && records[k].datetime == Null
    requires forall i :: 0 <= i < k ==> records[i].datetime != Null
    ensures var run := PublishAll(records, fileExists, upload);
      run.crashed && run.attempts == PublishAll(records[..k], fileExists, upload).attempts
      && |run.attempts| == k
  {
    var step := RecordStep(fileExists, upload);
    forall i | 0 <= i < k
      ensures step(records[i]).Some?
    {
    }
    StepsStop(records, k, step);
  }
}

=== FILE: wrappers.dfy ===
/** Optional values and success/failure results, used wherever the scripts
    return `None`, exit with an error or swallow an exception. */
module Wrappers {

  datatype Option<+T> = None | Some(value: T)

  datatype Result<+R, +E> = Success(value: R) | Failure(error: E)
}
